=== FILE: README.md ===
# Résumé builder: document model, store and template in Dafny

This project models the core of a browser-based résumé builder.

- **Document.** The document is an ordered sequence of *sections* plus an
  *active section* pointer. There are six section kinds:
  - `profile`, with scalar contact fields and no items;
  - `list`, `education` and `projects`, which hold entries (`ListItem`);
  - `skills`, which holds skill lines (`SkillItem`);
  - `custom`, which holds free-form blocks (`CustomBlock`) of four kinds.
- **Store.** The editing store changes the document through pure operations:
  - set the active section;
  - update, add, remove and reorder sections;
  - add, update and remove entries, skill lines and blocks;
  - reorder blocks.
- **Template.** The standard template turns the sections into an abstract output tree:
  - a header taken from the first profile section;
  - one heading-plus-body per visible non-profile section;
  - free-text descriptions segmented into a paragraph or a bullet list.
- **Block mover.** The editor's block mover guards a block reorder with a bounds check.

Each store operation is a pure function from the state before to the state after. The two reorders require in-range indices (see "## Left out"); every other operation is defined on every state.
Fresh ids are parameters, because the program draws them from `Math.random` and `Date.now`.
Item ids can collide, so their freshness is a precondition of the round-trip lemmas, never a theorem.

Files:

| file | module | contents |
|---|---|---|
| `wrappers.dfy` | `Wrappers` | `Option` |
| `seqs.dfy` | `Seqs` | `filter`, `map`, `find` and the two-step `splice` move, with their algebra |
| `types.dfy` | `Types` | the schema as datatypes |
| `text.dfy` | `Text` | JavaScript `trim`, `split('\n')` and the whitespace set they share |
| `store.dfy` | `Store` | the seed document and every store operation |
| `store_properties.dfy` | `StoreProperties` | consistency invariants, round trips, kind gates, the `removeSection` finding |
| `template.dfy` | `Template` | description segmentation, header, per-kind bodies, the document |
| `render_properties.dfy` | `RenderProperties` | how store operations show up in the rendering |
| `workspace.dfy` | `Workspace` | the block mover |

Schema modelling choices:

- A section is one four-constructor datatype.
  - `list`, `education` and `projects` share `ListSection`, whose `listType` is restricted to those three kinds.
  - Each constructor names its item field differently (`listItems`, `skillItems`, `blocks`), because Dafny gives a field name one type.
- A document is *consistent* (`Store.Consistent`) when two things hold:
  - its section ids are pairwise distinct;
  - the active pointer names a section, or is `""` in an empty document.

## Model

| member | source | states |
|---|---|---|
| Types.KindOf | types.ts:1-59 | Each section constructor carries exactly one of the six kinds. Profile, skills and custom map one-to-one; `list`/`education`/`projects` are exactly the kinds of a list section, and a list section's kind is its `listType`. |
| Types.EveryKindInhabited | types.ts:1 | Every one of the six kinds is the kind of some section. |
| Store.SeedIds | store/useResumeStore.ts:4-70 | The five seed section ids are pairwise distinct. |
| Store.SeedSections | store/useResumeStore.ts:4-70 | The seed document has five sections, and its ids are distinct. Its first section is the profile `sec_profile`, so a pointer to `sec_profile` is consistent. |
| Store.InitialState | store/useResumeStore.ts:72-74 | The initial state is consistent. It has five sections, and its active pointer names the first, a profile section. |
| Store.MergeSection | store/useResumeStore.ts:78-80 | Merging a patch keeps the id and the kind. Each patched field takes the patch's value and each absent field keeps its value. Items are untouched. |
| Store.MergeSectionThen | store/useResumeStore.ts:78-80 | Two successive merges equal one merge of the combined patch, with the later patch winning. |
| Store.MergeSectionIdentities | store/useResumeStore.ts:78-80 | The empty patch is the identity, and merging the same patch twice is the same as merging it once. |
| Store.MergeListItem | store/useResumeStore.ts:134 | An entry merge keeps the id and overrides exactly the fields present in the patch. |
| Store.MergeSkillItem | store/useResumeStore.ts:167 | A skill-line merge keeps the id and overrides exactly the fields present in the patch. |
| Store.MergeCustomBlock | store/useResumeStore.ts:200 | A block merge keeps the id and overrides exactly the fields present in the patch. |
| Store.SetActiveSection | store/useResumeStore.ts:76 | Only the pointer changes, and it becomes the given id whether or not a section has it. |
| Store.UpdateSection | store/useResumeStore.ts:78-80 | The ids, their order, every kind and the pointer are kept. Every section with the id is merged and every other section is unchanged. An unknown id is a no-op. |
| Store.NewSection | store/useResumeStore.ts:82-97 | A new section has the requested kind, the title "New Section" and is visible. It has no items; a new profile has empty contact fields and no summary. |
| Store.AddSection | store/useResumeStore.ts:82-103 | Exactly one section is appended and the earlier ones are unchanged. The pointer becomes the new id. |
| Store.RemoveSection | store/useResumeStore.ts:105-108 | Every section with the id is removed and the rest are kept, with no new ones. An unknown id keeps the sections. The pointer becomes the first id of the list *before* removal, or `""` for an empty list. |
| Store.ReorderSections | store/useResumeStore.ts:110-115 | The result is a permutation of the sections in which the element from `from` lands at `to`. The others shift as the two splices dictate. `from == to` is the identity, and the pointer is kept. |
| Store.AddListItem | store/useResumeStore.ts:117-127 | In the matching list-kind section an empty entry with the given id is appended. Every other section is unchanged, and with no such section the state is unchanged. |
| Store.UpdateListItem | store/useResumeStore.ts:129-139 | In the matching list-kind section the entry ids and their order are kept, and only entries with the item id are merged. Everything else is unchanged. |
| Store.DropListItem | store/useResumeStore.ts:144 | The entries left are exactly those whose id differs, and a section without that id is unchanged. |
| Store.RemoveListItem | store/useResumeStore.ts:141-148 | In the matching list-kind section, entries with the id are removed and no others. Every other section is unchanged. |
| StoreProperties.DropListItemUnique | store/useResumeStore.ts:144 | With distinct ids, removing the entry at position k deletes exactly that position and keeps the other entries in their order. |
| StoreProperties.DropListItemSplits | store/useResumeStore.ts:144 | Removal splits over any cut of the entries: the survivors of the first part come first, in order, then those of the second. |
| Store.AddSkillItem | store/useResumeStore.ts:150-160 | In the matching skills section an empty skill line is appended. Every other section is unchanged. |
| Store.UpdateSkillItem | store/useResumeStore.ts:162-172 | In the matching skills section the line ids are kept and only lines with the id are merged. Everything else is unchanged. |
| Store.DropSkillItem | store/useResumeStore.ts:177 | The skill lines left are exactly those whose id differs. |
| Store.RemoveSkillItem | store/useResumeStore.ts:174-181 | In the matching skills section, lines with the id are removed and no others. Every other section is unchanged. |
| StoreProperties.DropSkillItemUnique | store/useResumeStore.ts:177 | With distinct ids, removing the skill line at position k deletes exactly that position and keeps the other skill lines in their order. |
| StoreProperties.DropSkillItemSplits | store/useResumeStore.ts:177 | Removal splits over any cut of the skill lines: the survivors of the first part come first, in order, then those of the second. |
| Store.AddCustomBlock | store/useResumeStore.ts:183-193 | In the matching custom section a block of the requested kind is appended, with empty content and no date. Every other section is unchanged. |
| Store.UpdateCustomBlock | store/useResumeStore.ts:195-205 | In the matching custom section the block ids are kept and only blocks with the id are merged. Everything else is unchanged. |
| Store.DropCustomBlock | store/useResumeStore.ts:212 | The blocks left are exactly those whose id differs. |
| Store.RemoveCustomBlock | store/useResumeStore.ts:207-217 | In the matching custom section, blocks with the id are removed and no others. Every other section is unchanged. |
| StoreProperties.DropCustomBlockUnique | store/useResumeStore.ts:212 | With distinct ids, removing the block at position k deletes exactly that position and keeps the other blocks in their order. |
| StoreProperties.DropCustomBlockSplits | store/useResumeStore.ts:212 | Removal splits over any cut of the blocks: the survivors of the first part come first, in order, then those of the second. |
| Store.ReorderCustomBlock | store/useResumeStore.ts:219-231 | In the matching custom section the blocks are permuted, moving `from` to `to`. Every other section, every id and the pointer are unchanged. |
| StoreProperties.SameIdsKeepConsistency | store/useResumeStore.ts:78-80 | An operation that keeps the id sequence and the pointer keeps consistency, in both directions. |
| StoreProperties.SetActiveSectionConsistency | store/useResumeStore.ts:76 | Setting the pointer keeps a consistent document consistent exactly when the id exists, or the document is empty and the id is `""`. |
| StoreProperties.AddSectionConsistency | store/useResumeStore.ts:82-103 | Adding a section with a fresh id keeps the document consistent. |
| StoreProperties.IdsOfMove | store/useResumeStore.ts:110-115 | Reordering sections reorders their ids the same way. |
| StoreProperties.ReorderSectionsConsistency | store/useResumeStore.ts:110-115 | Reordering keeps the document consistent. |
| StoreProperties.FilterKeepsIdsDistinct | store/useResumeStore.ts:106 | Filtering sections keeps their ids pairwise distinct. |
| StoreProperties.RemoveSectionKeepsIdsDistinct | store/useResumeStore.ts:105-108 | Removing a section keeps the ids distinct. |
| StoreProperties.RemoveUniqueSection | store/useResumeStore.ts:106 | With distinct ids, removing the section at position k deletes exactly that position. |
| StoreProperties.RemoveFirstSectionDangles | store/useResumeStore.ts:107 | Removing the first of two or more sections leaves the pointer on the removed id. That id is no longer in the document, so the result is inconsistent. |
| StoreProperties.RemoveSectionDanglingExample | store/useResumeStore.ts:105-108 | A concrete consistent two-section document whose first section's removal dangles the pointer. |
| StoreProperties.RemoveOnlySection | store/useResumeStore.ts:105-108 | Removing the only section empties the document but keeps the removed id as the pointer, not `""`. |
| StoreProperties.RemoveSectionRepaired | store/useResumeStore.ts:105-108 | The corrected removal removes the same sections and always leaves a valid pointer. A pointer that still names a remaining section stays; otherwise it moves to the first remaining id, or `""` when none remain. |
| StoreProperties.RemoveSectionRepairedConsistency | store/useResumeStore.ts:105-108 | The corrected removal keeps every consistent document consistent. |
| StoreProperties.RemoveInactiveKeepsPointer | store/useResumeStore.ts:105-108 | In a consistent document, the corrected removal of a section that is not active leaves the pointer where it was. |
| StoreProperties.RemoveActiveMovesPointer | store/useResumeStore.ts:105-108 | In a consistent document, the corrected removal of the active section moves the pointer to the first remaining section, or to `""` when none remain. |
| StoreProperties.RemoveSectionRepairedAgrees | store/useResumeStore.ts:105-108 | Removing the active section when it is not the first one: the corrected and the original removal agree exactly. |
| StoreProperties.RemoveInactiveSectionExample | store/useResumeStore.ts:107 | Sections `a`, `b`, `c` with pointer `c`: the original removal of `b` moves the pointer to `a`, while the corrected one keeps `c`. |
| StoreProperties.AddThenRemoveSection | store/useResumeStore.ts:82-108 | Adding a section with a fresh id and then removing that id restores the sections. The pointer ends on the first section, or on the removed id when the document was empty. |
| StoreProperties.ReorderSectionsInverse | store/useResumeStore.ts:110-115 | Moving `from` to `to` and then `to` back to `from` restores the state. |
| StoreProperties.UpdateSectionThen | store/useResumeStore.ts:78-80 | Two updates of one section equal one update with the combined patch, and repeating an update changes nothing. |
| StoreProperties.FilterDropsAppended | store/useResumeStore.ts:144 | Filtering out an appended element that is the only one rejected gives back the original sequence. |
| StoreProperties.AppendThenFilterListItem | store/useResumeStore.ts:117-148 | Appending an entry with a fresh id and dropping that id gives back the section. |
| StoreProperties.AddThenRemoveListItem | store/useResumeStore.ts:117-148 | Adding an entry with an id fresh in the target section and then removing it restores the whole state. |
| StoreProperties.AppendThenFilterSkillItem | store/useResumeStore.ts:150-181 | Appending a skill line with a fresh id and dropping that id gives back the section. |
| StoreProperties.AddThenRemoveSkillItem | store/useResumeStore.ts:150-181 | Adding a skill line with a fresh id and then removing it restores the whole state. |
| StoreProperties.AppendThenFilterBlock | store/useResumeStore.ts:183-217 | Appending a block with a fresh id and dropping that id gives back the section. |
| StoreProperties.AddThenRemoveCustomBlock | store/useResumeStore.ts:183-217 | Adding a block with a fresh id and then removing it restores the whole state. |
| StoreProperties.UpdateListItemIdempotent | store/useResumeStore.ts:129-139 | Sending the same entry patch a second time changes nothing. |
| StoreProperties.UpdateSkillItemIdempotent | store/useResumeStore.ts:162-172 | Sending the same skill-line patch a second time changes nothing. |
| StoreProperties.UpdateCustomBlockIdempotent | store/useResumeStore.ts:195-205 | Sending the same block patch a second time changes nothing. |
| StoreProperties.ItemOperationsKeepConsistency | store/useResumeStore.ts:117-217 | Every entry, skill-line and block add, update and remove keeps a consistent document consistent. |
| StoreProperties.ReorderCustomBlockConsistency | store/useResumeStore.ts:219-231 | Reordering blocks keeps a consistent document consistent. |
| StoreProperties.ReorderCustomBlockInverse | store/useResumeStore.ts:219-231 | Moving a block and moving it back restores the state, and the reverse move is in range. |
| StoreProperties.ListItemOpsIgnoreOtherKinds | store/useResumeStore.ts:117-148 | Entry add, update and remove aimed at a section that is not list-kind change nothing. |
| StoreProperties.SkillItemOpsIgnoreOtherKinds | store/useResumeStore.ts:150-181 | Skill-line add, update and remove aimed at a non-skills section change nothing. |
| StoreProperties.CustomBlockOpsIgnoreOtherKinds | store/useResumeStore.ts:183-231 | Block add, update, remove and reorder aimed at a non-custom section change nothing. |
| Seqs.Filter | store/useResumeStore.ts:106 | The result keeps only elements satisfying the predicate. All kept gives the input; none kept gives the empty sequence. |
| Seqs.FilterMembers | store/useResumeStore.ts:106 | An element is in the filtered sequence exactly when it is in the input and satisfies the predicate. |
| Seqs.Move | store/useResumeStore.ts:111-113 | The two splices move the element at `from` to `to`. Every other element shifts by at most one, and the result is a permutation of the input. |
| Seqs.MoveInverse | store/useResumeStore.ts:111-113 | Moving `from` to `to` and then back is the identity. |
| Seqs.MoveAdjacent | store/useResumeStore.ts:223-225 | Moving an element to a neighbouring position swaps the two. |
| Seqs.FilterCount | templates/StandardTemplate.tsx:10 | The filter keeps exactly as many elements as satisfy the predicate. |
| Seqs.FindIndex | templates/StandardTemplate.tsx:5 | The index found is the first whose element satisfies the predicate, and there is none exactly when no element does. |
| Text.TrimStart | templates/StandardTemplate.tsx:21 | The result is a suffix of the input. Everything removed is whitespace, and the result does not start with whitespace. |
| Text.TrimEnd | templates/StandardTemplate.tsx:10 | The result is a prefix of the input. Everything removed is whitespace, and the result does not end with whitespace. |
| Text.Trim | templates/StandardTemplate.tsx:10 | `trim()` keeps a prefix of what `trimStart()` keeps, everything it drops after that prefix is whitespace, and the result neither starts nor ends with whitespace. |
| Text.TrimEmptyIffBlank | templates/StandardTemplate.tsx:10 | A trimmed line is empty exactly when the line is all whitespace. |
| Text.SplitLines | templates/StandardTemplate.tsx:10 | Splitting on `\n` gives at least one piece, none containing `\n`, and joining them with `\n` gives back the text. |
| Text.SplitJoin | templates/StandardTemplate.tsx:10 | Joining newline-free lines with `\n` and splitting again gives back the lines. |
| Text.JoinLinesEmpty | templates/StandardTemplate.tsx:9-10 | Joined lines are the empty text exactly for no lines or a single empty line. |
| Template.NonBlank | templates/StandardTemplate.tsx:10 | A line passes `line.trim().length > 0` exactly when it is not all whitespace. |
| Template.ContentLines | templates/StandardTemplate.tsx:10 | A line is among the lines considered exactly when it is a split piece that is not blank. There are as many of them as non-blank pieces, and each is free of `\n`. |
| Template.ContentLinesKeepOrder | templates/StandardTemplate.tsx:10 | The lines considered keep the split order: cutting the pieces anywhere, the non-blank pieces before the cut come first. |
| Template.StartsWithMarker | templates/StandardTemplate.tsx:13 | `startsWith('•') \|\| startsWith('-')` holds exactly when the line is non-empty and its first character is `•` or `-`. |
| Template.StripMarker | templates/StandardTemplate.tsx:21 | An unmarked line is unchanged. A marked line loses one leading `•`/`-` and exactly the whitespace after it. |
| Template.RenderDescription | templates/StandardTemplate.tsx:8-26 | There is nothing for `""`. The output is a paragraph exactly when one unmarked non-blank line remains, and the paragraph holds that line verbatim. Otherwise it is a list with one stripped item per remaining line, in order. |
| Template.SingleLineIsParagraph | templates/StandardTemplate.tsx:13-14 | A single unmarked non-blank line renders as that paragraph. |
| Template.StripBulleted | templates/StandardTemplate.tsx:21 | Stripping `• ` from an item that does not start with whitespace gives the item. |
| Template.BulletLine | templates/StandardTemplate.tsx:10-21 | A `• `-prefixed item line counts as content and strips back to the item. |
| Template.PlainLinesAreBullets | templates/StandardTemplate.tsx:13-24 | Two or more unmarked non-blank lines render as a list of those lines unchanged. |
| Template.ExampleOneLine | templates/StandardTemplate.tsx:13-14 | `Did X` renders as a paragraph. |
| Template.ExampleTwoLines | templates/StandardTemplate.tsx:17-24 | `Did X\nDid Y` renders as a two-item list. |
| Template.ExampleMarkedLine | templates/StandardTemplate.tsx:13-24 | A single marked line renders as a one-item list, not a paragraph. |
| Template.BlankTextIsEmptyList | templates/StandardTemplate.tsx:9-24 | Non-empty text made only of whitespace renders as an empty list. |
| Template.ContentLinesOfJoin | templates/StandardTemplate.tsx:10 | Joining non-blank newline-free lines and reading the content lines back gives those lines. |
| Template.JoinedListOfLines | templates/StandardTemplate.tsx:10-24 | Non-blank newline-free lines, joined, render as a list of their stripped lines unless they are a single unmarked line. |
| Template.ListOfLines | templates/StandardTemplate.tsx:17-24 | When the paragraph case does not apply, the output is the list of stripped lines. |
| Template.BulletedLines | templates/StandardTemplate.tsx:10-21 | Every `• item` line is newline-free, non-blank and marked, and strips back to its item. |
| Template.BulletRoundTrip | templates/StandardTemplate.tsx:8-26 | Writing items as `• `-bulleted lines and rendering them gives back exactly those items. |
| Template.SameLinesSameRendering | templates/StandardTemplate.tsx:10-24 | Two non-empty texts with the same content lines render the same. |
| Template.DescriptionIgnoresBlankLine | templates/StandardTemplate.tsx:10 | Inserting a blank line anywhere does not change the rendering. |
| Template.IfPresent | templates/StandardTemplate.tsx:35-45 | A field appears exactly when it is non-empty, and it appears verbatim. |
| Template.IfPresentOpt | templates/StandardTemplate.tsx:44-45 | An optional field appears exactly when it is present and non-empty. |
| Template.RenderHeader | templates/StandardTemplate.tsx:31-47 | The header has the name. Email, phone, url and summary appear exactly when non-empty, and verbatim. The separator between email and phone appears exactly when both do. |
| Template.RenderEntry | templates/StandardTemplate.tsx:77-90 | An entry shows its title. The date appears exactly when the section is not `projects` and the date is non-empty, and the subtitle exactly when non-empty. The description goes through the segmentation. |
| Template.RenderBlock | templates/StandardTemplate.tsx:98-116 | Each block kind renders as its own output kind. Heading, subtitle and text show the content verbatim. A subtitle shows its date exactly when non-empty, and a list block goes through the segmentation. |
| Template.RenderSection | templates/StandardTemplate.tsx:55-118 | A section is headed by its title. The body kind follows the section kind, with one output per item in order. |
| Template.Shown | templates/StandardTemplate.tsx:52-53 | A section reaches the body exactly when its kind is not `profile` and it is visible. |
| Template.RenderBody | templates/StandardTemplate.tsx:52-59 | The body is the rendering of exactly the visible non-profile sections, in document order. |
| Template.RenderBodyConcat | templates/StandardTemplate.tsx:52-59 | Rendering two concatenated section lists concatenates their bodies. |
| Template.FirstProfile | templates/StandardTemplate.tsx:5 | The index found is the first profile section's, and there is none exactly when there is no profile. |
| Template.HeaderOf | templates/StandardTemplate.tsx:5-47 | There is a header exactly when some section is a profile, and it is the first profile's header. |
| Template.Render | templates/StandardTemplate.tsx:4-124 | The document has a header exactly when some section is a profile, and it is the first profile's header. Its body is the rendering of exactly the visible non-profile sections, in document order. |
| RenderProperties.VisibilityPatch | store/useResumeStore.ts:78-80 | A patch that sets only `isVisible`, which the `Partial<ResumeSection>` payload of `updateSection` accepts: it carries the given visibility, and the title, name, email, phone, url and summary are absent from it. |
| RenderProperties.HiddenRendersAsDropped | templates/StandardTemplate.tsx:52-53 | Sections that are not shown contribute nothing, so replacing them with hidden ones renders like deleting them. |
| RenderProperties.HideEqualsRemove | templates/StandardTemplate.tsx:53 | Hiding a section renders the same body as removing it. |
| RenderProperties.EmptyBody | templates/StandardTemplate.tsx:63-118 | The empty body of a new non-profile section has the kind of its section. |
| RenderProperties.AddSectionRendering | store/useResumeStore.ts:82-103 | Adding a section appends one "New Section" heading with an empty body to the rendering. A new profile section appends nothing. |
| RenderProperties.VisibilityKeepsProfiles | store/useResumeStore.ts:78-80 | A visibility update keeps every section's kind and every profile's header. |
| RenderProperties.HeaderIgnoresVisibility | templates/StandardTemplate.tsx:5-47 | The header does not depend on any section's visibility. |
| Workspace.Target | components/layout/FormWorkspace.tsx:30 | The target is `index - 1` for up and `index + 1` for down. |
| Workspace.ActiveIndex | components/layout/FormWorkspace.tsx:24-26 | The position found is the first that holds the active section, and there is none exactly when no section has the active id. |
| Workspace.MoveNeighbour | components/layout/FormWorkspace.tsx:32 | Moving a block to an adjacent index swaps it with its neighbour. |
| Workspace.ReorderOneSection | store/useResumeStore.ts:219-231 | With distinct ids, reordering blocks changes only the one section with the id. |
| Workspace.ReorderAdjacent | components/layout/FormWorkspace.tsx:32 | An adjacent reorder swaps two blocks of the target section and changes nothing else. |
| Workspace.MoveBlock | components/layout/FormWorkspace.tsx:28-34 | It does nothing without an active section, with a non-custom active section, or with a target out of range. Otherwise it swaps the block with its neighbour and leaves everything else in place. |
| Workspace.EdgeMovesAreNoOps | components/layout/FormWorkspace.tsx:31 | Moving the first block up or the last block down is a no-op. |
| Workspace.ActiveIndexKept | components/layout/FormWorkspace.tsx:24 | An operation that keeps the ids and the pointer keeps the active section's position. |
| Workspace.MoveBlockSwaps | components/layout/FormWorkspace.tsx:28-34 | An in-range move swaps two blocks of the active section, as one equation over the state. |
| Workspace.DownThenUp | components/layout/FormWorkspace.tsx:28-34 | Moving a block down and then moving it up again restores the state. |

## Left out

- Id generation: `Math.random` and `Date.now` ids are parameters. Freshness is a precondition of the round-trip lemmas (`FreshListItemId` and its siblings), not a theorem, since `Date.now` ids can collide.
- Out-of-range splices: `Store.ReorderSections` and `Store.ReorderCustomBlock` require in-range indices. Out-of-range and negative indices are not modelled. In JavaScript an out-of-range `from` makes `splice(from, 1)` remove nothing and insert `undefined`. A `to` past the end appends the real element. A negative index counts from the end.
- Store.UpdateSection: the payload covers what the section form sends (the title, and a profile's name, email, phone and url) plus `isVisible` and `summary`, which `Partial<ResumeSection>` also allows. A patch that overwrites `id` or `type` is not modelled. A profile field merged into a non-profile section is dropped, whereas JavaScript would attach an unread property.
- Store.MergeListItem: the item patches cannot change an item's `id`, which the editor never sends.
- Workspace.MoveBlock: requires the section ids to be distinct. With duplicate ids the editor's `find` and the store's `map` could act on different sections, and that case is not modelled.
- Template.RenderSection: gives a profile section an empty body. Profiles never reach it in the program, because the body filters them out first.
- Store operations are pure functions. The store's `set` plumbing, subscriptions and re-rendering are not modelled.
- Markup: the JSX markup, CSS classes, the `: ` after a skill category and keys are not modelled. The output tree keeps only what is shown and in which order.
- Strings are sequences of Unicode scalar values rather than UTF-16 code units. All characters the code inspects (`\n`, `•`, `-`, the whitespace set of `trim` and `\s`) are single code units, so this does not change any result.
- `ListItem.url` is carried but never rendered, as in the template.
- The preview's scale clamp, zoom steps, print and portal are floating-point presentation and I/O, and are not modelled.
- Other UI files are not modelled: the sidebar (whose delete button's `length > 1` guard is a UI rule, not a store invariant), the app shell, the landing page and the auto-resizing text area.
- `Store.RemoveSection` follows the code as written: `removeSection` resets the pointer on every removal, uses the first id of the list before removal, and keeps the removed id when the only section goes. The corrected removal is in the finding below.

## Findings

| source | as written | input that shows it | evidently intended | confidence | as-written member | corrected member |
|---|---|---|---|---|---|---|
| store/useResumeStore.ts:107 | After every removal the pointer becomes `state.sections[0]?.id`, the first id of the list *before* removal. | Sections `a`, `b` with pointer `a`: `removeSection('a')` leaves sections `[b]` with pointer `a`, a section that no longer exists. Removing the only section likewise keeps its id. Sections `a`, `b`, `c` with pointer `c`: `removeSection('b')` moves the pointer off `c` to `a`. | A pointer that still names a remaining section stays; otherwise it moves to the first id of the remaining sections, or `''` when none remain. | not executed | StoreProperties.RemoveFirstSectionDangles, StoreProperties.RemoveSectionDanglingExample, StoreProperties.RemoveInactiveSectionExample | StoreProperties.RemoveSectionRepaired, StoreProperties.RemoveSectionRepairedConsistency, StoreProperties.RemoveInactiveKeepsPointer |

=== FILE: render_properties.dfy ===
/** How store operations show up in the rendered document: hiding a section
    renders like removing it, a new section renders as an empty titled block
    at the end, and visibility never affects the header. */
module RenderProperties {
  import opened Wrappers
  import opened Seqs
  import opened Types
  import opened Store
  import opened Template

  /** A patch that sets only `isVisible`, which `updateSection`'s
      `Partial<ResumeSection>` payload accepts. */
  function VisibilityPatch(visible: bool): (p: SectionPatch)
    ensures p.isVisible == Some(visible)
    ensures p.title.None? && p.name.None? && p.email.None? && p.phone.None? && p.url.None? && p.summary.None?
  {
    NoSectionChange.(isVisible := Some(visible))
  }

  /** Replacing every dropped section by a section that is not shown renders
      exactly like dropping it. */
  lemma HiddenRendersAsDropped(ss: seq<Section>, ss': seq<Section>, keep: Section -> bool)
    requires |ss'| == |ss|
    requires forall i :: 0 <= i < |ss| && keep(ss[i]) ==> ss'[i] == ss[i]
    requires forall i :: 0 <= i < |ss| && !keep(ss[i]) ==> !Shown(ss'[i])
    ensures RenderBody(ss') == RenderBody(Filter(ss, keep))
  {
    FilterReplaceDropped(ss, ss', keep, Shown);
  }

  /** Hiding a section renders the same body as removing it. */
  lemma HideEqualsRemove(st: State, id: string)
    ensures RenderBody(UpdateSection(st, id, VisibilityPatch(false)).sections)
         == RenderBody(RemoveSection(st, id).sections)
  {
    HiddenRendersAsDropped(st.sections, UpdateSection(st, id, VisibilityPatch(false)).sections,
      (s: Section) => s.id != id);
  }

  /** The body a section with no items renders to. */
  function EmptyBody(t: SectionType): (b: Body)
    requires !t.Profile?
    ensures b.SkillsBody? <==> t.Skills?
    ensures b.BlocksBody? <==> t.Custom?
    ensures b.EntriesBody? <==> IsListType(t)
  {
    match t
    case Skills => SkillsBody([])
    case Custom => BlocksBody([])
    case _ => EntriesBody([])
  }

  /** A new section appends one empty "New Section" block to the body, unless
      it is a profile, which the body never shows. */
  lemma AddSectionRendering(st: State, t: SectionType, newId: string)
    ensures RenderBody(AddSection(st, t, newId).sections)
         == RenderBody(st.sections) + (if t.Profile? then [] else [SectionOut("New Section", EmptyBody(t))])
  {
    var added := NewSection(t, newId);
    assert AddSection(st, t, newId).sections == st.sections + [added];
    RenderBodyConcat(st.sections, [added]);
    assert [added][1..] == [];
  }

  /** A visibility patch keeps every section's kind, and every profile's header. */
  lemma VisibilityKeepsProfiles(st: State, id: string, visible: bool)
    ensures var ss' := UpdateSection(st, id, VisibilityPatch(visible)).sections;
      |ss'| == |st.sections| &&
      forall i :: 0 <= i < |st.sections| ==>
        ss'[i].ProfileSection? == st.sections[i].ProfileSection? &&
        (st.sections[i].ProfileSection? ==> RenderHeader(ss'[i]) == RenderHeader(st.sections[i]))
  {
    var ss := st.sections;
    var ss' := UpdateSection(st, id, VisibilityPatch(visible)).sections;
    assert |ss'| == |ss| by {
      assert |ss'| == |Ids(ss')|;
    }
    forall i | 0 <= i < |ss|
      ensures ss'[i].ProfileSection? == ss[i].ProfileSection?
      ensures ss[i].ProfileSection? ==> RenderHeader(ss'[i]) == RenderHeader(ss[i])
    {
      assert KindOf(ss'[i]) == KindOf(ss[i]);
    }
  }

  /** Setting `isVisible` never changes the header: the header is taken from
      the first profile section whatever its visibility. */
  lemma HeaderIgnoresVisibility(st: State, id: string, visible: bool)
    ensures HeaderOf(UpdateSection(st, id, VisibilityPatch(visible)).sections) == HeaderOf(st.sections)
  {
    var ss := st.sections;
    var ss' := UpdateSection(st, id, VisibilityPatch(visible)).sections;
    VisibilityKeepsProfiles(st, id, visible);
    FindIndexSame(ss, ss', (s: Section) => s.ProfileSection?);
    assert FirstProfile(ss') == FirstProfile(ss);
  }
}

=== FILE: seqs.dfy ===
/** Sequence operations shared by the store and the template: the array
    methods `filter`, `map` (with a per-element condition), `find` and the
    two-step `splice` move used by the reorder operations. */
module Seqs {
  import opened Wrappers

  /** `s.filter(keep)`: the elements satisfying `keep`, in their original order. */
  function Filter<T>(s: seq<T>, keep: T -> bool): (r: seq<T>)
    ensures |r| <= |s|
    ensures forall i :: 0 <= i < |r| ==> keep(r[i])
    ensures (forall i :: 0 <= i < |s| ==> keep(s[i])) ==> r == s
    ensures (forall i :: 0 <= i < |s| ==> !keep(s[i])) ==> r == []
  {
    if s == [] then []
    else (if keep(s[0]) then [s[0]] else []) + Filter(s[1..], keep)
  }

  /** The number of elements satisfying `p`. */
  function Count<T>(s: seq<T>, p: T -> bool): nat
  {
    if s == [] then 0
    else (if p(s[0]) then 1 else 0) + Count(s[1..], p)
  }

  /** The filter keeps exactly as many elements as satisfy the predicate. */
  lemma {:induction false} FilterCount<T>(s: seq<T>, keep: T -> bool)
    ensures |Filter(s, keep)| == Count(s, keep)
  {
    if s != [] {
      FilterCount(s[1..], keep);
    }
  }

  /** Filtering a concatenation filters each part: together with the
      single-element case this fixes the order of the kept elements. */
  lemma {:induction false} FilterConcat<T>(a: seq<T>, b: seq<T>, keep: T -> bool)
    ensures Filter(a + b, keep) == Filter(a, keep) + Filter(b, keep)
  {
    if a == [] {
      assert a + b == b;
    } else {
      assert (a + b)[1..] == a[1..] + b;
      FilterConcat(a[1..], b, keep);
    }
  }

  /** The kept elements are exactly the elements of `s` satisfying `keep`. */
  lemma {:induction false} FilterMembers<T>(s: seq<T>, keep: T -> bool, x: T)
    ensures x in Filter(s, keep) <==> x in s && keep(x)
  {
    if s != [] {
      FilterMembers(s[1..], keep, x);
      assert s == [s[0]] + s[1..];
    }
  }

  /** Removing one element from the middle of a sequence whose other
      elements are all kept. */
  lemma {:induction false} FilterSingleOut<T>(s: seq<T>, k: nat, keep: T -> bool)
    requires k < |s|
    requires !keep(s[k])
    requires forall i :: 0 <= i < |s| && i != k ==> keep(s[i])
    ensures Filter(s, keep) == s[..k] + s[k+1..]
  {
    if k == 0 {
      assert forall i :: 0 <= i < |s[1..]| ==> keep(s[1..][i]) by {
        forall i | 0 <= i < |s[1..]|
          ensures keep(s[1..][i])
        {
          assert s[1..][i] == s[i + 1];
        }
      }
    } else {
      var t := s[1..];
      forall i | 0 <= i < |t| && i != k - 1
        ensures keep(t[i])
      {
        assert t[i] == s[i + 1];
      }
      FilterSingleOut(t, k - 1, keep);
      assert s[..k] + s[k+1..] == [s[0]] + (t[..k - 1] + t[k..]);
    }
  }

  /** `s.map(x => p(x) ? f(x) : x)`: `f` applied exactly at the positions
      satisfying `p`, everything else left in place. */
  function MapWhere<T>(s: seq<T>, p: T -> bool, f: T -> T): (r: seq<T>)
    ensures |r| == |s|
    ensures forall i :: 0 <= i < |s| ==> r[i] == (if p(s[i]) then f(s[i]) else s[i])
  {
    if s == [] then []
    else [if p(s[0]) then f(s[0]) else s[0]] + MapWhere(s[1..], p, f)
  }

  /** `s.map(f)`. */
  function Map<T, U>(s: seq<T>, f: T -> U): (r: seq<U>)
    ensures |r| == |s|
    ensures forall i :: 0 <= i < |s| ==> r[i] == f(s[i])
  {
    seq(|s|, i requires 0 <= i < |s| => f(s[i]))
  }

  /** `s.map(x => keep(x) ? f(x) : null)` with the nulls dropped, element by
      element. */
  function MapFilter<T, U>(s: seq<T>, keep: T -> bool, f: T -> U): (r: seq<U>)
    ensures |r| <= |s|
    ensures (forall i :: 0 <= i < |s| ==> !keep(s[i])) ==> r == []
  {
    if s == [] then []
    else (if keep(s[0]) then [f(s[0])] else []) + MapFilter(s[1..], keep, f)
  }

  /** Dropping nulls element by element is filtering first and mapping
      after. */
  lemma {:induction false} MapFilterIsMapOfFilter<T, U>(s: seq<T>, keep: T -> bool, f: T -> U)
    ensures MapFilter(s, keep, f) == Map(Filter(s, keep), f)
  {
    if s != [] {
      MapFilterIsMapOfFilter(s[1..], keep, f);
      var rest := Filter(s[1..], keep);
      if keep(s[0]) {
        assert Filter(s, keep) == [s[0]] + rest;
        assert Map([s[0]] + rest, f) == [f(s[0])] + Map(rest, f);
      } else {
        assert Filter(s, keep) == rest;
      }
    }
  }

  /** The null-dropping map splits over a concatenation. */
  lemma {:induction false} MapFilterConcat<T, U>(a: seq<T>, b: seq<T>, keep: T -> bool, f: T -> U)
    ensures MapFilter(a + b, keep, f) == MapFilter(a, keep, f) + MapFilter(b, keep, f)
  {
    if a == [] {
      assert a + b == b;
    } else {
      assert (a + b)[0] == a[0];
      assert (a + b)[1..] == a[1..] + b;
      MapFilterConcat(a[1..], b, keep, f);
    }
  }

  /** Replacing every element a first filter drops by one a second filter
      drops gives what the two filters in turn give. */
  lemma {:induction false} FilterReplaceDropped<T>(s: seq<T>, s': seq<T>, keep: T -> bool, shown: T -> bool)
    requires |s'| == |s|
    requires forall i :: 0 <= i < |s| && keep(s[i]) ==> s'[i] == s[i]
    requires forall i :: 0 <= i < |s| && !keep(s[i]) ==> !shown(s'[i])
    ensures Filter(s', shown) == Filter(Filter(s, keep), shown)
  {
    if s != [] {
      var tl, tl' := s[1..], s'[1..];
      forall i | 0 <= i < |tl| && keep(tl[i])
        ensures tl'[i] == tl[i]
      {
        assert tl[i] == s[i + 1] && tl'[i] == s'[i + 1];
      }
      forall i | 0 <= i < |tl| && !keep(tl[i])
        ensures !shown(tl'[i])
      {
        assert tl[i] == s[i + 1] && tl'[i] == s'[i + 1];
      }
      FilterReplaceDropped(tl, tl', keep, shown);
      assert Filter(s', shown) == (if shown(s'[0]) then [s'[0]] else []) + Filter(tl', shown);
      var rest := Filter(tl, keep);
      if keep(s[0]) {
        var kept := [s[0]] + rest;
        assert Filter(s, keep) == kept;
        assert kept[0] == s[0] && kept[1..] == rest;
        assert Filter(kept, shown) == (if shown(s[0]) then [s[0]] else []) + Filter(rest, shown);
      } else {
        assert Filter(s, keep) == rest;
      }
    }
  }

  /** `s.findIndex(p)`: the first position satisfying `p`, if any. */
  function FindIndex<T>(s: seq<T>, p: T -> bool): (r: Option<nat>)
    ensures r.Some? ==> r.value < |s| && p(s[r.value])
    ensures r.Some? ==> forall j :: 0 <= j < r.value ==> !p(s[j])
    ensures r.None? <==> forall j :: 0 <= j < |s| ==> !p(s[j])
  {
    if s == [] then None
    else if p(s[0]) then Some(0)
    else match FindIndex(s[1..], p)
      case None => None
      case Some(k) => Some(k + 1)
  }

  /** `findIndex` sees only the truth values of its predicate. */
  lemma {:induction false} FindIndexSame<T>(s: seq<T>, s': seq<T>, p: T -> bool)
    requires |s'| == |s|
    requires forall i :: 0 <= i < |s| ==> p(s'[i]) == p(s[i])
    ensures FindIndex(s', p) == FindIndex(s, p)
  {
    if s != [] {
      forall i | 0 <= i < |s| - 1
        ensures p(s'[1..][i]) == p(s[1..][i])
      {
        assert s'[1..][i] == s'[i + 1] && s[1..][i] == s[i + 1];
      }
      FindIndexSame(s[1..], s'[1..], p);
    }
  }

  /** The position of `s` whose element ends up at position `k` after the
      element at `from` is moved to `to`. */
  function MoveSource(from: nat, to: nat, k: nat): nat
  {
    if k == to then from
    else if from < to && from <= k < to then k + 1
    else if to < from && to < k <= from then k - 1
    else k
  }

  /** `const [x] = s.splice(from, 1); s.splice(to, 0, x)` with both indices
      in range: the element at `from` is taken out and reinserted so that it
      sits at `to`, every other element keeping its relative order. */
  function Move<T>(s: seq<T>, from: nat, to: nat): (r: seq<T>)
    requires from < |s| && to < |s|
    ensures |r| == |s|
    ensures r[to] == s[from]
    ensures forall k :: 0 <= k < |s| ==> MoveSource(from, to, k) < |s| && r[k] == s[MoveSource(from, to, k)]
    ensures multiset(r) == multiset(s)
  {
    var rest := s[..from] + s[from+1..];
    MoveFacts(s, from, to, rest);
    rest[..to] + [s[from]] + rest[to..]
  }

  lemma MoveFacts<T>(s: seq<T>, from: nat, to: nat, rest: seq<T>)
    requires from < |s| && to < |s|
    requires rest == s[..from] + s[from+1..]
    ensures var r := rest[..to] + [s[from]] + rest[to..];
      && |r| == |s|
      && (forall k :: 0 <= k < |s| ==> MoveSource(from, to, k) < |s| && r[k] == s[MoveSource(from, to, k)])
      && multiset(r) == multiset(s)
  {
    var r := rest[..to] + [s[from]] + rest[to..];
    forall k | 0 <= k < |s|
      ensures MoveSource(from, to, k) < |s| && r[k] == s[MoveSource(from, to, k)]
    {
      if k < to {
        assert r[k] == rest[k];
      } else if k > to {
        assert r[k] == rest[k - 1];
      }
    }
    assert multiset(r) == multiset(s) by {
      assert s == s[..from] + [s[from]] + s[from+1..];
      assert rest == rest[..to] + rest[to..];
      calc {
        multiset(r);
        multiset(rest[..to]) + multiset([s[from]]) + multiset(rest[to..]);
        multiset(rest) + multiset([s[from]]);
        multiset(s[..from]) + multiset(s[from+1..]) + multiset([s[from]]);
        multiset(s);
      }
    }
  }

  /** A move with equal indices leaves the sequence as it was. */
  lemma MoveSame<T>(s: seq<T>, i: nat)
    requires i < |s|
    ensures Move(s, i, i) == s
  {
  }

  /** Moving back undoes a move. */
  lemma MoveInverse<T>(s: seq<T>, from: nat, to: nat)
    requires from < |s| && to < |s|
    ensures Move(Move(s, from, to), to, from) == s
  {
    var r := Move(s, from, to);
    var r' := Move(r, to, from);
    forall k | 0 <= k < |s|
      ensures r'[k] == s[k]
    {
      assert MoveSource(from, to, MoveSource(to, from, k)) == k;
    }
  }

  /** Moving by one position in either direction swaps two neighbours. */
  lemma MoveAdjacent<T>(s: seq<T>, i: nat)
    requires i + 1 < |s|
    ensures Move(s, i, i + 1) == s[i := s[i + 1]][i + 1 := s[i]]
    ensures Move(s, i + 1, i) == s[i := s[i + 1]][i + 1 := s[i]]
  {
    var w := s[i := s[i + 1]][i + 1 := s[i]];
    var a := Move(s, i, i + 1);
    var b := Move(s, i + 1, i);
    forall k | 0 <= k < |s|
      ensures a[k] == w[k] && b[k] == w[k]
    {
      assert MoveSource(i, i + 1, k) == MoveSource(i + 1, i, k);
    }
  }

  /** No value occurs twice. */
  ghost predicate Distinct<T>(s: seq<T>)
  {
    forall a, b :: 0 <= a < |s| && 0 <= b < |s| && a != b ==> s[a] != s[b]
  }

  /** Moving an element keeps the values distinct. */
  lemma MoveDistinct<T>(s: seq<T>, from: nat, to: nat)
    requires from < |s| && to < |s|
    requires Distinct(s)
    ensures Distinct(Move(s, from, to))
  {
    var r := Move(s, from, to);
    forall a, b | 0 <= a < |r| && 0 <= b < |r| && a != b
      ensures r[a] != r[b]
    {
      assert MoveSource(from, to, a) != MoveSource(from, to, b);
    }
  }
}

=== FILE: store.dfy ===
/** The mutation store: the seed document and every operation, each a pure
    function from the state before to the state after. Fresh ids, which the
    store draws from `Math.random` and `Date.now`, are parameters. */
module Store {
  import opened Wrappers
  import opened Seqs
  import opened Types

  /* ---------------------------------------------------------------------- */
  /* Seed document                                                          */
  /* ---------------------------------------------------------------------- */

  /* The seed entries' descriptions, written as concatenations of short
     literals (the text is the same). */

  function WorkDescription(): string
  {
    "Engineered " + "complex Boolean " + "search strings " + "on LinkedIn to "
    + "pinpoint niche " + "talent and " + "potential " + "clients, "
    + "increasing the " + "relevant " + "profile " + "discovery rate "
    + "by 30% and " + "ensuring high " + "candidate " + "quality.\nStreamlined "
    + "the sourcing " + "pipeline by " + "utilizing " + "social media "
    + "platforms to " + "cross-reference " + "data and filter " + "high-relevance "
    + "profiles, " + "reducing manual " + "screening time " + "for senior "
    + "executives by " + "15 hours " + "monthly.\nTech/Skills: " + "LinkedIn "
    + "Recruiter, " + "Sales " + "Navigator, " + "Social Media "
    + "Mining, Market " + "Research, " + "Talent " + "Sourcing, Cold "
    + "Outreach, MS " + "Excel."
  }

  function EducationDescription(): string
  {
    "Relevant " + "Coursework: " + "Object Oriented " + "Programming, "
    + "Databases, " + "Discrete Maths, " + "Data Structures " + "and Algorithms, "
    + "Operating " + "Systems, " + "Computer " + "Networks, "
    + "Software " + "Engineering, " + "Software " + "Project "
    + "Management."
  }

  function ProjectDescription(): string
  {
    "Developed a " + "full-stack " + "e-commerce " + "application for "
    + "online grocery " + "shopping with " + "separate Admin " + "and Customer "
    + "modules.\nDesigned " + "a normalized " + "relational " + "database to "
    + "manage complex " + "inventory " + "hierarchies " + "(Categories, "
    + "Subcategories, " + "and " + "Specifications).\nImplemented " + "a "
    + "\"Recipe-Aware\" " + "product catalog " + "that maps " + "ingredients to "
    + "specific " + "cuisines " + "(Indian, " + "International) "
    + "for smarter " + "shopping.\nIntegrated " + "secure " + "role-based "
    + "authentication " + "using ASP.NET " + "Session state " + "and created "
    + "dynamic, " + "data-driven " + "user interfaces " + "using DataLists "
    + "and GridViews."
  }

  /** The document invariants: the section ids are pairwise distinct, and
      the active id names a section, or is "" when there are none. */
  ghost predicate Consistent(st: State)
  {
    Distinct(Ids(st.sections)) && ActiveValid(st)
  }

  predicate ActiveValid(st: State)
  {
    st.activeSectionId in Ids(st.sections) || (st.sections == [] && st.activeSectionId == "")
  }

  /** The seed section ids, in document order: pairwise distinct. */
  function SeedIds(): (ids: seq<string>)
    ensures |ids| == 5 && Distinct(ids)
  {
    var ids := ["sec_profile", "sec_skills", "sec_exp", "sec_edu", "sec_proj"];
    assert |ids[0]| == 11 && |ids[1]| == 10 && |ids[2]| == 7 && |ids[3]| == 7 && |ids[4]| == 8;
    assert ids[2][5] != ids[3][5];
    ids
  }

  /** The seed sections, with the three entry descriptions as parameters. */
  function SeedSections(work: string, education: string, project: string): (ss: seq<Section>)
    ensures |ss| == 5 && Consistent(State(ss, "sec_profile"))
    ensures ss[0].ProfileSection? && ss[0].id == "sec_profile"
  {
    var ss :=
    [ ProfileSection("sec_profile", "Personal Info", true,
        "Ashish Pratap Singh", "xxx@gmail.com", "XXX-XXX-XXX",
        "github.com/ashishps1 | linkedin.com/in/ashishps1", Some("")),
      SkillsSection("sec_skills", "Skills", true,
        [SkillItem("sk_1", "Languages", "C/C++, Java, Python, JavaScript, C#, SQL")]),
      ListSection("sec_exp", "Work Experience", true, List,
        [ListItem("exp_1", "Talktek Technologies",
           "Business Development Executive (Internship)", "Apr 2024 - Jul 2024",
           work,
           None)]),
      ListSection("sec_edu", "Education", true, Education,
        [ListItem("edu_1", "Shivaji University",
           "Bachelor\U{2019}s in Computer Science", "Jun 2023 - May 2026",
           education,
           None)]),
      ListSection("sec_proj", "Projects", true, Projects,
        [ListItem("proj_1", "Grocify (Smart Grocery Web Application)",
           "C#, ASP.NET Web Forms, Microsoft SQL Server", "",
           project,
           None)]) ];
    assert Ids(ss) == SeedIds();
    assert Ids(ss)[0] == "sec_profile";
    ss
  }

  /** The store as created: the seed document with the profile section
      active, which satisfies the document invariants. */
  function InitialState(): (st: State)
    ensures |st.sections| == 5 && Consistent(st)
    ensures st.sections[0].ProfileSection? && st.activeSectionId == st.sections[0].id
  {
    State(SeedSections(WorkDescription(), EducationDescription(), ProjectDescription()), "sec_profile")
  }

  /* ---------------------------------------------------------------------- */
  /* Partial-record merges (`{ ...x, ...data }`)                             */
  /* ---------------------------------------------------------------------- */

  /** The payload of `updateSection`: what the section form sends (the title,
      and a profile's name, email, phone and url), plus `isVisible` and
      `summary`, which `Partial<ResumeSection>` also allows. */
  datatype SectionPatch = SectionPatch(
    title: Option<string>,
    isVisible: Option<bool>,
    name: Option<string>,
    email: Option<string>,
    phone: Option<string>,
    url: Option<string>,
    summary: Option<string>)

  const NoSectionChange := SectionPatch(None, None, None, None, None, None, None)

  /** A present field overrides, an absent one keeps the old value. */
  function Override<T>(prior: T, o: Option<T>): (r: T)
    ensures o.None? ==> r == prior
    ensures o.Some? ==> r == o.value
  {
    o.GetOr(prior)
  }

  /** `{ ...p, ...q }` on patches: `q` wins where it has a field. */
  function ThenSection(p: SectionPatch, q: SectionPatch): SectionPatch
  {
    SectionPatch(
      if q.title.Some? then q.title else p.title,
      if q.isVisible.Some? then q.isVisible else p.isVisible,
      if q.name.Some? then q.name else p.name,
      if q.email.Some? then q.email else p.email,
      if q.phone.Some? then q.phone else p.phone,
      if q.url.Some? then q.url else p.url,
      if q.summary.Some? then q.summary else p.summary)
  }

  /** `{ ...sec, ...data }`: the id, the kind and the items never change;
      the profile fields only exist on a profile section. */
  function MergeSection(s: Section, p: SectionPatch): (r: Section)
    ensures r.id == s.id && KindOf(r) == KindOf(s)
    ensures r.title == Override(s.title, p.title)
    ensures r.isVisible == Override(s.isVisible, p.isVisible)
    ensures s.ListSection? ==> r.listType == s.listType && r.listItems == s.listItems
    ensures s.SkillsSection? ==> r.skillItems == s.skillItems
    ensures s.CustomSection? ==> r.blocks == s.blocks
    ensures s.ProfileSection? ==>
      && r.name == Override(s.name, p.name)
      && r.email == Override(s.email, p.email)
      && r.phone == Override(s.phone, p.phone)
      && r.url == Override(s.url, p.url)
      && r.summary == (if p.summary.Some? then p.summary else s.summary)
  {
    var title := Override(s.title, p.title);
    var isVisible := Override(s.isVisible, p.isVisible);
    match s
    case ProfileSection(id, _, _, name, email, phone, url, summary) =>
      ProfileSection(id, title, isVisible,
        Override(name, p.name), Override(email, p.email), Override(phone, p.phone),
        Override(url, p.url), if p.summary.Some? then p.summary else summary)
    case ListSection(id, _, _, t, items) => ListSection(id, title, isVisible, t, items)
    case SkillsSection(id, _, _, items) => SkillsSection(id, title, isVisible, items)
    case CustomSection(id, _, _, blocks) => CustomSection(id, title, isVisible, blocks)
  }

  /** Spreading two patches one after the other is spreading their union. */
  lemma MergeSectionThen(s: Section, p: SectionPatch, q: SectionPatch)
    ensures MergeSection(MergeSection(s, p), q) == MergeSection(s, ThenSection(p, q))
  {
  }

  /** The empty patch changes nothing, and applying a patch twice is
      applying it once. */
  lemma MergeSectionIdentities(s: Section, p: SectionPatch)
    ensures MergeSection(s, NoSectionChange) == s
    ensures MergeSection(MergeSection(s, p), p) == MergeSection(s, p)
  {
    assert ThenSection(p, p) == p;
    MergeSectionThen(s, p, p);
  }

  /** `Partial<ListItem>` without the id, which no caller overwrites. */
  datatype ListItemPatch = ListItemPatch(
    title: Option<string>,
    subtitle: Option<string>,
    date: Option<string>,
    description: Option<string>,
    url: Option<string>)

  function MergeListItem(it: ListItem, p: ListItemPatch): (r: ListItem)
    ensures r.id == it.id
    ensures r.title == Override(it.title, p.title)
    ensures r.subtitle == Override(it.subtitle, p.subtitle)
    ensures r.date == Override(it.date, p.date)
    ensures r.description == Override(it.description, p.description)
    ensures r.url == (if p.url.Some? then p.url else it.url)
  {
    ListItem(it.id, Override(it.title, p.title), Override(it.subtitle, p.subtitle),
      Override(it.date, p.date), Override(it.description, p.description),
      if p.url.Some? then p.url else it.url)
  }

  /** `Partial<SkillItem>` without the id. */
  datatype SkillItemPatch = SkillItemPatch(category: Option<string>, items: Option<string>)

  function MergeSkillItem(it: SkillItem, p: SkillItemPatch): (r: SkillItem)
    ensures r.id == it.id
    ensures r.category == Override(it.category, p.category)
    ensures r.items == Override(it.items, p.items)
  {
    SkillItem(it.id, Override(it.category, p.category), Override(it.items, p.items))
  }

  /** `Partial<CustomBlock>` without the id. */
  datatype CustomBlockPatch = CustomBlockPatch(
    blockType: Option<CustomBlockType>,
    content: Option<string>,
    date: Option<string>)

  function MergeCustomBlock(b: CustomBlock, p: CustomBlockPatch): (r: CustomBlock)
    ensures r.id == b.id
    ensures r.blockType == Override(b.blockType, p.blockType)
    ensures r.content == Override(b.content, p.content)
    ensures r.date == (if p.date.Some? then p.date else b.date)
  {
    CustomBlock(b.id, Override(b.blockType, p.blockType), Override(b.content, p.content),
      if p.date.Some? then p.date else b.date)
  }

  /* ---------------------------------------------------------------------- */
  /* Section operations                                                     */
  /* ---------------------------------------------------------------------- */

  /** `setActiveSection`: any id is accepted, existing or not. */
  function SetActiveSection(st: State, id: string): (r: State)
    ensures r.sections == st.sections
    ensures r.activeSectionId == id
  {
    st.(activeSectionId := id)
  }

  /** `updateSection`: the patch is spread into every section with the id;
      the ids, their order and every other section stay as they were. */
  function UpdateSection(st: State, id: string, p: SectionPatch): (r: State)
    ensures Ids(r.sections) == Ids(st.sections)
    ensures r.activeSectionId == st.activeSectionId
    ensures forall i :: 0 <= i < |st.sections| ==>
      KindOf(r.sections[i]) == KindOf(st.sections[i])
    ensures forall i :: 0 <= i < |st.sections| && st.sections[i].id == id ==>
      r.sections[i] == MergeSection(st.sections[i], p)
    ensures forall i :: 0 <= i < |st.sections| && st.sections[i].id != id ==>
      r.sections[i] == st.sections[i]
    ensures id !in Ids(st.sections) ==> r == st
  {
    var r := st.(sections := MapWhere(st.sections, (s: Section) => s.id == id, (s: Section) => MergeSection(s, p)));
    assert id !in Ids(st.sections) ==> r.sections == st.sections by {
      if id !in Ids(st.sections) {
        forall i | 0 <= i < |st.sections|
          ensures r.sections[i] == st.sections[i]
        {
          assert Ids(st.sections)[i] == st.sections[i].id;
        }
      }
    }
    r
  }

  /** Whether a section holds no items (a profile never does). */
  predicate HasNoItems(s: Section)
  {
    match s
    case ProfileSection(_, _, _, _, _, _, _, _) => true
    case ListSection(_, _, _, _, items) => items == []
    case SkillsSection(_, _, _, items) => items == []
    case CustomSection(_, _, _, blocks) => blocks == []
  }

  /** The section `addSection(t)` creates under the id `id`. */
  function NewSection(t: SectionType, id: string): (s: Section)
    ensures s.id == id && s.title == "New Section" && s.isVisible
    ensures KindOf(s) == t && HasNoItems(s)
    ensures s.ProfileSection? ==>
      s.name == "" && s.email == "" && s.phone == "" && s.url == "" && s.summary == None
  {
    match t
    case Profile => ProfileSection(id, "New Section", true, "", "", "", "", None)
    case Skills => SkillsSection(id, "New Section", true, [])
    case List => ListSection(id, "New Section", true, t, [])
    case Education => ListSection(id, "New Section", true, t, [])
    case Projects => ListSection(id, "New Section", true, t, [])
    case Custom => CustomSection(id, "New Section", true, [])
  }

  /** `addSection(t)` with the generated id `newId`: one empty section of kind
      `t` appended at the end and made active. */
  function AddSection(st: State, t: SectionType, newId: string): (r: State)
    ensures |r.sections| == |st.sections| + 1
    ensures r.sections[..|st.sections|] == st.sections
    ensures r.sections[|st.sections|] == NewSection(t, newId)
    ensures Ids(r.sections) == Ids(st.sections) + [newId]
    ensures r.activeSectionId == newId
  {
    var r := State(st.sections + [NewSection(t, newId)], newId);
    assert r.sections[..|st.sections|] == st.sections;
    r
  }

  /** `removeSection`, as written: every section with the id goes, the rest
      keep their order, and the active id becomes the first id of the list
      as it was BEFORE the removal (or "" when that list was empty). */
  function RemoveSection(st: State, id: string): (r: State)
    ensures |r.sections| <= |st.sections|
    ensures forall i :: 0 <= i < |r.sections| ==> r.sections[i].id != id
    ensures forall s :: s in st.sections && s.id != id ==> s in r.sections
    ensures forall s :: s in r.sections ==> s in st.sections
    ensures id !in Ids(st.sections) ==> r.sections == st.sections
    ensures r.activeSectionId == if |st.sections| > 0 then st.sections[0].id else ""
  {
    var kept := Filter(st.sections, (s: Section) => s.id != id);
    forall s: Section
      ensures s in kept <==> s in st.sections && s.id != id
    {
      FilterMembers(st.sections, (s: Section) => s.id != id, s);
    }
    assert id !in Ids(st.sections) ==> kept == st.sections by {
      if id !in Ids(st.sections) {
        forall i | 0 <= i < |st.sections|
          ensures st.sections[i].id != id
        {
          assert Ids(st.sections)[i] == st.sections[i].id;
        }
      }
    }
    State(kept, if |st.sections| > 0 then st.sections[0].id else "")
  }

  /** `reorderSections(from, to)` with both indices in range: the section at
      `from` moves to `to` and the others keep their relative order. */
  function ReorderSections(st: State, from: nat, to: nat): (r: State)
    requires from < |st.sections| && to < |st.sections|
    ensures |r.sections| == |st.sections|
    ensures multiset(r.sections) == multiset(st.sections)
    ensures r.sections[to] == st.sections[from]
    ensures forall k :: 0 <= k < |st.sections| ==>
      r.sections[k] == st.sections[MoveSource(from, to, k)]
    ensures from == to ==> r == st
    ensures r.activeSectionId == st.activeSectionId
  {
    if from == to then MoveSame(st.sections, from); st.(sections := Move(st.sections, from, to))
    else st.(sections := Move(st.sections, from, to))
  }

  /* ---------------------------------------------------------------------- */
  /* Item operations                                                        */
  /* ---------------------------------------------------------------------- */

  /** The kind gates of the item operations: an id match on a section of the
      kind that holds the item type. */
  predicate IsListTarget(s: Section, sectionId: string)
  {
    s.id == sectionId && s.ListSection?
  }

  predicate IsSkillsTarget(s: Section, sectionId: string)
  {
    s.id == sectionId && s.SkillsSection?
  }

  predicate IsCustomTarget(s: Section, sectionId: string)
  {
    s.id == sectionId && s.CustomSection?
  }

  /** `addListItem` with the generated id `itemId`. */
  function AddListItem(st: State, sectionId: string, itemId: string): (r: State)
    ensures Ids(r.sections) == Ids(st.sections)
    ensures r.activeSectionId == st.activeSectionId
    ensures forall i :: 0 <= i < |st.sections| && !IsListTarget(st.sections[i], sectionId) ==>
      r.sections[i] == st.sections[i]
    ensures forall i :: 0 <= i < |st.sections| && IsListTarget(st.sections[i], sectionId) ==>
      r.sections[i] == st.sections[i].(listItems :=
        st.sections[i].listItems + [ListItem(itemId, "", "", "", "", None)])
    ensures (forall i :: 0 <= i < |st.sections| ==> !IsListTarget(st.sections[i], sectionId)) ==> r == st
  {
    var item := ListItem(itemId, "", "", "", "", None);
    var r := st.(sections := MapWhere(st.sections, (s: Section) => IsListTarget(s, sectionId),
      (s: Section) => if s.ListSection? then s.(listItems := s.listItems + [item]) else s));
    assert Ids(r.sections) == Ids(st.sections);
    r
  }

  /** `updateListItem`: the patch is spread into the entries with the id, in
      the list-kind sections with the section id. */
  function UpdateListItem(st: State, sectionId: string, itemId: string, p: ListItemPatch): (r: State)
    ensures Ids(r.sections) == Ids(st.sections)
    ensures r.activeSectionId == st.activeSectionId
    ensures forall i :: 0 <= i < |st.sections| && !IsListTarget(st.sections[i], sectionId) ==>
      r.sections[i] == st.sections[i]
    ensures forall i :: 0 <= i < |st.sections| && IsListTarget(st.sections[i], sectionId) ==>
      && r.sections[i].ListSection?
      && r.sections[i] == st.sections[i].(listItems := r.sections[i].listItems)
      && ListItemIds(r.sections[i].listItems) == ListItemIds(st.sections[i].listItems)
      && forall k :: 0 <= k < |st.sections[i].listItems| ==>
           r.sections[i].listItems[k] ==
             if st.sections[i].listItems[k].id == itemId
             then MergeListItem(st.sections[i].listItems[k], p)
             else st.sections[i].listItems[k]
    ensures (forall i :: 0 <= i < |st.sections| ==> !IsListTarget(st.sections[i], sectionId)) ==> r == st
  {
    var r := st.(sections := MapWhere(st.sections, (s: Section) => IsListTarget(s, sectionId),
      (s: Section) => if s.ListSection?
           then s.(listItems := MapWhere(s.listItems, (it: ListItem) => it.id == itemId, (it: ListItem) => MergeListItem(it, p)))
           else s));
    assert Ids(r.sections) == Ids(st.sections);
    r
  }

  /** One ListSection: the items with the id go, the others stay in order. */
  function DropListItem(s: Section, itemId: string): (r: Section)
    requires s.ListSection?
    ensures r.ListSection? && r == s.(listItems := r.listItems)
    ensures forall k :: 0 <= k < |r.listItems| ==> r.listItems[k].id != itemId
    ensures forall it :: it in r.listItems <==> it in s.listItems && it.id != itemId
    ensures itemId !in ListItemIds(s.listItems) ==> r == s
  {
    var r := s.(listItems := Filter(s.listItems, (it: ListItem) => it.id != itemId));
    forall it: ListItem
      ensures it in r.listItems <==> it in s.listItems && it.id != itemId
    {
      FilterMembers(s.listItems, (it: ListItem) => it.id != itemId, it);
    }
    assert itemId !in ListItemIds(s.listItems) ==> r == s by {
      assert forall k :: 0 <= k < |s.listItems| ==> ListItemIds(s.listItems)[k] == s.listItems[k].id;
    }
    r
  }

  /** `removeListItem`: the entries with the id leave the list-kind sections
      with the section id. */
  function RemoveListItem(st: State, sectionId: string, itemId: string): (r: State)
    ensures Ids(r.sections) == Ids(st.sections)
    ensures r.activeSectionId == st.activeSectionId
    ensures forall i :: 0 <= i < |st.sections| && !IsListTarget(st.sections[i], sectionId) ==>
      r.sections[i] == st.sections[i]
    ensures forall i :: 0 <= i < |st.sections| && IsListTarget(st.sections[i], sectionId) ==>
      && r.sections[i] == DropListItem(st.sections[i], itemId)
      && r.sections[i].ListSection?
      && r.sections[i] == st.sections[i].(listItems := r.sections[i].listItems)
      && (forall k :: 0 <= k < |r.sections[i].listItems| ==> r.sections[i].listItems[k].id != itemId)
      && (forall it :: it in st.sections[i].listItems && it.id != itemId ==> it in r.sections[i].listItems)
      && (forall it :: it in r.sections[i].listItems ==> it in st.sections[i].listItems)
      && (itemId !in ListItemIds(st.sections[i].listItems) ==> r.sections[i] == st.sections[i])
    ensures (forall i :: 0 <= i < |st.sections| ==> !IsListTarget(st.sections[i], sectionId)) ==> r == st
  {
    var r := st.(sections := MapWhere(st.sections, (s: Section) => IsListTarget(s, sectionId),
      (s: Section) => if s.ListSection? then DropListItem(s, itemId) else s));
    assert Ids(r.sections) == Ids(st.sections);
    r
  }

  /** `addSkillItem` with the generated id `itemId`. */
  function AddSkillItem(st: State, sectionId: string, itemId: string): (r: State)
    ensures Ids(r.sections) == Ids(st.sections)
    ensures r.activeSectionId == st.activeSectionId
    ensures forall i :: 0 <= i < |st.sections| && !IsSkillsTarget(st.sections[i], sectionId) ==>
      r.sections[i] == st.sections[i]
    ensures forall i :: 0 <= i < |st.sections| && IsSkillsTarget(st.sections[i], sectionId) ==>
      r.sections[i] == st.sections[i].(skillItems :=
        st.sections[i].skillItems + [SkillItem(itemId, "", "")])
    ensures (forall i :: 0 <= i < |st.sections| ==> !IsSkillsTarget(st.sections[i], sectionId)) ==> r == st
  {
    var item := SkillItem(itemId, "", "");
    var r := st.(sections := MapWhere(st.sections, (s: Section) => IsSkillsTarget(s, sectionId),
      (s: Section) => if s.SkillsSection? then s.(skillItems := s.skillItems + [item]) else s));
    assert Ids(r.sections) == Ids(st.sections);
    r
  }

  /** `updateSkillItem`. */
  function UpdateSkillItem(st: State, sectionId: string, itemId: string, p: SkillItemPatch): (r: State)
    ensures Ids(r.sections) == Ids(st.sections)
    ensures r.activeSectionId == st.activeSectionId
    ensures forall i :: 0 <= i < |st.sections| && !IsSkillsTarget(st.sections[i], sectionId) ==>
      r.sections[i] == st.sections[i]
    ensures forall i :: 0 <= i < |st.sections| && IsSkillsTarget(st.sections[i], sectionId) ==>
      && r.sections[i].SkillsSection?
      && r.sections[i] == st.sections[i].(skillItems := r.sections[i].skillItems)
      && SkillItemIds(r.sections[i].skillItems) == SkillItemIds(st.sections[i].skillItems)
      && forall k :: 0 <= k < |st.sections[i].skillItems| ==>
           r.sections[i].skillItems[k] ==
             if st.sections[i].skillItems[k].id == itemId
             then MergeSkillItem(st.sections[i].skillItems[k], p)
             else st.sections[i].skillItems[k]
    ensures (forall i :: 0 <= i < |st.sections| ==> !IsSkillsTarget(st.sections[i], sectionId)) ==> r == st
  {
    var r := st.(sections := MapWhere(st.sections, (s: Section) => IsSkillsTarget(s, sectionId),
      (s: Section) => if s.SkillsSection?
           then s.(skillItems := MapWhere(s.skillItems, (it: SkillItem) => it.id == itemId, (it: SkillItem) => MergeSkillItem(it, p)))
           else s));
    assert Ids(r.sections) == Ids(st.sections);
    r
  }

  /** One SkillsSection: the items with the id go, the others stay in order. */
  function DropSkillItem(s: Section, itemId: string): (r: Section)
    requires s.SkillsSection?
    ensures r.SkillsSection? && r == s.(skillItems := r.skillItems)
    ensures forall k :: 0 <= k < |r.skillItems| ==> r.skillItems[k].id != itemId
    ensures forall it :: it in r.skillItems <==> it in s.skillItems && it.id != itemId
    ensures itemId !in SkillItemIds(s.skillItems) ==> r == s
  {
    var r := s.(skillItems := Filter(s.skillItems, (it: SkillItem) => it.id != itemId));
    forall it: SkillItem
      ensures it in r.skillItems <==> it in s.skillItems && it.id != itemId
    {
      FilterMembers(s.skillItems, (it: SkillItem) => it.id != itemId, it);
    }
    assert itemId !in SkillItemIds(s.skillItems) ==> r == s by {
      assert forall k :: 0 <= k < |s.skillItems| ==> SkillItemIds(s.skillItems)[k] == s.skillItems[k].id;
    }
    r
  }

  /** `removeSkillItem`. */
  function RemoveSkillItem(st: State, sectionId: string, itemId: string): (r: State)
    ensures Ids(r.sections) == Ids(st.sections)
    ensures r.activeSectionId == st.activeSectionId
    ensures forall i :: 0 <= i < |st.sections| && !IsSkillsTarget(st.sections[i], sectionId) ==>
      r.sections[i] == st.sections[i]
    ensures forall i :: 0 <= i < |st.sections| && IsSkillsTarget(st.sections[i], sectionId) ==>
      && r.sections[i] == DropSkillItem(st.sections[i], itemId)
      && r.sections[i].SkillsSection?
      && r.sections[i] == st.sections[i].(skillItems := r.sections[i].skillItems)
      && (forall k :: 0 <= k < |r.sections[i].skillItems| ==> r.sections[i].skillItems[k].id != itemId)
      && (forall it :: it in st.sections[i].skillItems && it.id != itemId ==> it in r.sections[i].skillItems)
      && (forall it :: it in r.sections[i].skillItems ==> it in st.sections[i].skillItems)
      && (itemId !in SkillItemIds(st.sections[i].skillItems) ==> r.sections[i] == st.sections[i])
    ensures (forall i :: 0 <= i < |st.sections| ==> !IsSkillsTarget(st.sections[i], sectionId)) ==> r == st
  {
    var r := st.(sections := MapWhere(st.sections, (s: Section) => IsSkillsTarget(s, sectionId),
      (s: Section) => if s.SkillsSection? then DropSkillItem(s, itemId) else s));
    assert Ids(r.sections) == Ids(st.sections);
    r
  }

  /** `addCustomBlock(sectionId, type)` with the generated id `blockId`: the
      new block has the given type, empty content and no date. */
  function AddCustomBlock(st: State, sectionId: string, t: CustomBlockType, blockId: string): (r: State)
    ensures Ids(r.sections) == Ids(st.sections)
    ensures r.activeSectionId == st.activeSectionId
    ensures forall i :: 0 <= i < |st.sections| && !IsCustomTarget(st.sections[i], sectionId) ==>
      r.sections[i] == st.sections[i]
    ensures forall i :: 0 <= i < |st.sections| && IsCustomTarget(st.sections[i], sectionId) ==>
      r.sections[i] == st.sections[i].(blocks :=
        st.sections[i].blocks + [CustomBlock(blockId, t, "", None)])
    ensures (forall i :: 0 <= i < |st.sections| ==> !IsCustomTarget(st.sections[i], sectionId)) ==> r == st
  {
    var block := CustomBlock(blockId, t, "", None);
    var r := st.(sections := MapWhere(st.sections, (s: Section) => IsCustomTarget(s, sectionId),
      (s: Section) => if s.CustomSection? then s.(blocks := s.blocks + [block]) else s));
    assert Ids(r.sections) == Ids(st.sections);
    r
  }

  /** `updateCustomBlock`. */
  function UpdateCustomBlock(st: State, sectionId: string, blockId: string, p: CustomBlockPatch): (r: State)
    ensures Ids(r.sections) == Ids(st.sections)
    ensures r.activeSectionId == st.activeSectionId
    ensures forall i :: 0 <= i < |st.sections| && !IsCustomTarget(st.sections[i], sectionId) ==>
      r.sections[i] == st.sections[i]
    ensures forall i :: 0 <= i < |st.sections| && IsCustomTarget(st.sections[i], sectionId) ==>
      && r.sections[i].CustomSection?
      && r.sections[i] == st.sections[i].(blocks := r.sections[i].blocks)
      && BlockIds(r.sections[i].blocks) == BlockIds(st.sections[i].blocks)
      && forall k :: 0 <= k < |st.sections[i].blocks| ==>
           r.sections[i].blocks[k] ==
             if st.sections[i].blocks[k].id == blockId
             then MergeCustomBlock(st.sections[i].blocks[k], p)
             else st.sections[i].blocks[k]
    ensures (forall i :: 0 <= i < |st.sections| ==> !IsCustomTarget(st.sections[i], sectionId)) ==> r == st
  {
    var r := st.(sections := MapWhere(st.sections, (s: Section) => IsCustomTarget(s, sectionId),
      (s: Section) => if s.CustomSection?
           then s.(blocks := MapWhere(s.blocks, (b: CustomBlock) => b.id == blockId, (b: CustomBlock) => MergeCustomBlock(b, p)))
           else s));
    assert Ids(r.sections) == Ids(st.sections);
    r
  }

  /** One CustomSection: the items with the id go, the others stay in order. */
  function DropCustomBlock(s: Section, itemId: string): (r: Section)
    requires s.CustomSection?
    ensures r.CustomSection? && r == s.(blocks := r.blocks)
    ensures forall k :: 0 <= k < |r.blocks| ==> r.blocks[k].id != itemId
    ensures forall b :: b in r.blocks <==> b in s.blocks && b.id != itemId
    ensures itemId !in BlockIds(s.blocks) ==> r == s
  {
    var r := s.(blocks := Filter(s.blocks, (b: CustomBlock) => b.id != itemId));
    forall b: CustomBlock
      ensures b in r.blocks <==> b in s.blocks && b.id != itemId
    {
      FilterMembers(s.blocks, (b: CustomBlock) => b.id != itemId, b);
    }
    assert itemId !in BlockIds(s.blocks) ==> r == s by {
      assert forall k :: 0 <= k < |s.blocks| ==> BlockIds(s.blocks)[k] == s.blocks[k].id;
    }
    r
  }

  /** `removeCustomBlock`. */
  function RemoveCustomBlock(st: State, sectionId: string, blockId: string): (r: State)
    ensures Ids(r.sections) == Ids(st.sections)
    ensures r.activeSectionId == st.activeSectionId
    ensures forall i :: 0 <= i < |st.sections| && !IsCustomTarget(st.sections[i], sectionId) ==>
      r.sections[i] == st.sections[i]
    ensures forall i :: 0 <= i < |st.sections| && IsCustomTarget(st.sections[i], sectionId) ==>
      && r.sections[i] == DropCustomBlock(st.sections[i], blockId)
      && r.sections[i].CustomSection?
      && r.sections[i] == st.sections[i].(blocks := r.sections[i].blocks)
      && (forall k :: 0 <= k < |r.sections[i].blocks| ==> r.sections[i].blocks[k].id != blockId)
      && (forall b :: b in st.sections[i].blocks && b.id != blockId ==> b in r.sections[i].blocks)
      && (forall b :: b in r.sections[i].blocks ==> b in st.sections[i].blocks)
      && (blockId !in BlockIds(st.sections[i].blocks) ==> r.sections[i] == st.sections[i])
    ensures (forall i :: 0 <= i < |st.sections| ==> !IsCustomTarget(st.sections[i], sectionId)) ==> r == st
  {
    var r := st.(sections := MapWhere(st.sections, (s: Section) => IsCustomTarget(s, sectionId),
      (s: Section) => if s.CustomSection? then DropCustomBlock(s, blockId) else s));
    assert Ids(r.sections) == Ids(st.sections);
    r
  }

  /** The precondition of `reorderCustomBlock`: both indices are in range for
      every custom section with the id (the store leaves out-of-range splices
      unguarded). */
  predicate BlockIndicesInRange(ss: seq<Section>, sectionId: string, from: nat, to: nat)
  {
    forall i :: 0 <= i < |ss| && IsCustomTarget(ss[i], sectionId) ==>
      from < |ss[i].blocks| && to < |ss[i].blocks|
  }

  /** `reorderCustomBlock(sectionId, from, to)`: the blocks of the custom
      sections with the id are permuted by the move; nothing else changes. */
  function ReorderCustomBlock(st: State, sectionId: string, from: nat, to: nat): (r: State)
    requires BlockIndicesInRange(st.sections, sectionId, from, to)
    ensures Ids(r.sections) == Ids(st.sections)
    ensures r.activeSectionId == st.activeSectionId
    ensures forall i :: 0 <= i < |st.sections| && !IsCustomTarget(st.sections[i], sectionId) ==>
      r.sections[i] == st.sections[i]
    ensures forall i :: 0 <= i < |st.sections| && IsCustomTarget(st.sections[i], sectionId) ==>
      && r.sections[i].CustomSection?
      && r.sections[i] == st.sections[i].(blocks := r.sections[i].blocks)
      && |r.sections[i].blocks| == |st.sections[i].blocks|
      && multiset(r.sections[i].blocks) == multiset(st.sections[i].blocks)
      && r.sections[i].blocks[to] == st.sections[i].blocks[from]
      && forall k :: 0 <= k < |st.sections[i].blocks| ==>
           r.sections[i].blocks[k] == st.sections[i].blocks[MoveSource(from, to, k)]
    ensures (forall i :: 0 <= i < |st.sections| ==> !IsCustomTarget(st.sections[i], sectionId)) ==> r == st
  {
    var r := st.(sections := MapWhere(st.sections, (s: Section) => IsCustomTarget(s, sectionId),
      (s: Section) => if s.CustomSection? && from < |s.blocks| && to < |s.blocks|
           then s.(blocks := Move(s.blocks, from, to))
           else s));
    assert Ids(r.sections) == Ids(st.sections);
    r
  }
}

=== FILE: store_properties.dfy ===
/** Properties of the store operations that relate several calls or a call
    and the document invariants: preservation of the invariants, add/remove
    round trips, inverse reorders, kind-gated no-ops, and the behaviour of
    `removeSection` on the active pointer. */
module StoreProperties {
  import opened Wrappers
  import opened Seqs
  import opened Types
  import opened Store

  /* ---------------------------------------------------------------------- */
  /* Invariant preservation                                                 */
  /* ---------------------------------------------------------------------- */

  /** Operations that keep the id sequence and the active id keep the
      invariants: every update, item add/remove and block reorder. */
  lemma SameIdsKeepConsistency(st: State, r: State)
    requires Ids(r.sections) == Ids(st.sections)
    requires r.activeSectionId == st.activeSectionId
    ensures Consistent(r) <==> Consistent(st)
  {
    assert (r.sections == []) <==> (st.sections == []) by {
      assert |r.sections| == |Ids(r.sections)|;
    }
  }

  /** Pointing the active id at a section keeps the invariants; pointing it
      anywhere else (other than "" on an empty document) breaks them, since
      `setActiveSection` accepts any id. */
  lemma SetActiveSectionConsistency(st: State, id: string)
    requires Consistent(st)
    ensures Consistent(SetActiveSection(st, id)) <==>
      (id in Ids(st.sections) || (st.sections == [] && id == ""))
  {
  }

  /** Adding a section under a fresh id keeps the invariants. */
  lemma {:induction false} AddSectionConsistency(st: State, t: SectionType, newId: string)
    requires Consistent(st)
    requires newId !in Ids(st.sections)
    ensures Consistent(AddSection(st, t, newId))
  {
    var ids := Ids(AddSection(st, t, newId).sections);
    assert ids == Ids(st.sections) + [newId];
    assert ids[|ids| - 1] == newId;
    forall a, b | 0 <= a < |ids| && 0 <= b < |ids| && a != b
      ensures ids[a] != ids[b]
    {
      if a < |ids| - 1 && b < |ids| - 1 {
        assert ids[a] == Ids(st.sections)[a] && ids[b] == Ids(st.sections)[b];
      } else if a < |ids| - 1 {
        assert ids[a] == Ids(st.sections)[a];
      } else {
        assert ids[b] == Ids(st.sections)[b];
      }
    }
  }

  /** The id sequence moves with the sections. */
  lemma {:induction false} IdsOfMove(ss: seq<Section>, from: nat, to: nat)
    requires from < |ss| && to < |ss|
    ensures Ids(Move(ss, from, to)) == Move(Ids(ss), from, to)
  {
    var a := Ids(Move(ss, from, to));
    var b := Move(Ids(ss), from, to);
    forall k | 0 <= k < |ss|
      ensures a[k] == b[k]
    {
      assert a[k] == Move(ss, from, to)[k].id == ss[MoveSource(from, to, k)].id;
      assert b[k] == Ids(ss)[MoveSource(from, to, k)];
    }
  }

  /** Reordering keeps the invariants: ids stay distinct and the active id
      still names a section. */
  lemma {:induction false} ReorderSectionsConsistency(st: State, from: nat, to: nat)
    requires from < |st.sections| && to < |st.sections|
    requires Consistent(st)
    ensures Consistent(ReorderSections(st, from, to))
  {
    var ids := Ids(st.sections);
    IdsOfMove(st.sections, from, to);
    MoveDistinct(ids, from, to);
    var moved := Move(ids, from, to);
    assert multiset(moved) == multiset(ids);
    assert st.activeSectionId in multiset(ids);
  }

  /** Filtering keeps the section ids distinct. */
  lemma {:induction false} FilterKeepsIdsDistinct(ss: seq<Section>, keep: Section -> bool)
    requires Distinct(Ids(ss))
    ensures Distinct(Ids(Filter(ss, keep)))
  {
    if ss != [] {
      var tail := ss[1..];
      assert Distinct(Ids(tail)) by {
        forall a, b | 0 <= a < |tail| && 0 <= b < |tail| && a != b
          ensures Ids(tail)[a] != Ids(tail)[b]
        {
          assert Ids(ss)[a + 1] != Ids(ss)[b + 1];
        }
      }
      FilterKeepsIdsDistinct(tail, keep);
      var rest := Filter(tail, keep);
      if keep(ss[0]) {
        var r := [ss[0]] + rest;
        forall k | 0 <= k < |rest|
          ensures rest[k].id != ss[0].id
        {
          FilterMembers(tail, keep, rest[k]);
          var j :| 0 <= j < |tail| && tail[j] == rest[k];
          assert Ids(ss)[j + 1] != Ids(ss)[0];
        }
        forall a, b | 0 <= a < |r| && 0 <= b < |r| && a != b
          ensures Ids(r)[a] != Ids(r)[b]
        {
          if a > 0 && b > 0 {
            assert Ids(rest)[a - 1] != Ids(rest)[b - 1];
          }
        }
      } else {
        assert Filter(ss, keep) == rest;
      }
    }
  }

  /* ---------------------------------------------------------------------- */
  /* removeSection and the active pointer                                    */
  /* ---------------------------------------------------------------------- */

  /** Removing a section keeps the remaining ids distinct. */
  lemma RemoveSectionKeepsIdsDistinct(st: State, id: string)
    requires Distinct(Ids(st.sections))
    ensures Distinct(Ids(RemoveSection(st, id).sections))
  {
    FilterKeepsIdsDistinct(st.sections, (s: Section) => s.id != id);
  }

  /** With distinct ids, removing the section at position `k` deletes exactly
      that position and keeps the order of the others. */
  lemma RemoveUniqueSection(st: State, k: nat)
    requires k < |st.sections|
    requires Distinct(Ids(st.sections))
    ensures RemoveSection(st, st.sections[k].id).sections == st.sections[..k] + st.sections[k+1..]
  {
    var id := st.sections[k].id;
    forall i | 0 <= i < |st.sections| && i != k
      ensures st.sections[i].id != id
    {
      assert Ids(st.sections)[i] != Ids(st.sections)[k];
    }
    FilterSingleOut(st.sections, k, (s: Section) => s.id != id);
  }

  /** As written, removing the FIRST section leaves the active id naming the
      section just removed, although others remain. */
  lemma RemoveFirstSectionDangles(st: State)
    requires Distinct(Ids(st.sections))
    requires |st.sections| >= 2
    ensures var r := RemoveSection(st, st.sections[0].id);
      && |r.sections| == |st.sections| - 1
      && r.activeSectionId == st.sections[0].id
      && r.activeSectionId !in Ids(r.sections)
      && !Consistent(r)
  {
    RemoveUniqueSection(st, 0);
  }

  /** A concrete case: with sections "a" and "b" and "a" active, removing "a"
      leaves the pointer on "a". */
  lemma RemoveSectionDanglingExample()
    ensures var st := State([CustomSection("a", "A", true, []), CustomSection("b", "B", true, [])], "a");
      && Consistent(st)
      && RemoveSection(st, "a") == State([CustomSection("b", "B", true, [])], "a")
      && !Consistent(RemoveSection(st, "a"))
  {
    var st := State([CustomSection("a", "A", true, []), CustomSection("b", "B", true, [])], "a");
    assert Ids(st.sections) == ["a", "b"];
    RemoveUniqueSection(st, 0);
    assert Ids(RemoveSection(st, "a").sections) == ["b"];
  }

  /** As written, removing the only section leaves the pointer on the removed
      id rather than "". */
  lemma RemoveOnlySection(st: State)
    requires |st.sections| == 1
    ensures RemoveSection(st, st.sections[0].id) == State([], st.sections[0].id)
  {
  }

  /** `removeSection` with the pointer repaired: a pointer that still names a
      remaining section stays where it is; otherwise it
      moves to the first remaining section, or becomes "" when none remain. */
  function RemoveSectionRepaired(st: State, id: string): (r: State)
    ensures r.sections == RemoveSection(st, id).sections
    ensures ActiveValid(r)
    ensures st.activeSectionId in Ids(r.sections) ==> r.activeSectionId == st.activeSectionId
    ensures st.activeSectionId !in Ids(r.sections) ==>
      r.activeSectionId == if r.sections == [] then "" else r.sections[0].id
  {
    var kept := RemoveSection(st, id).sections;
    if st.activeSectionId in Ids(kept) then State(kept, st.activeSectionId)
    else if kept == [] then State(kept, "")
    else
      assert Ids(kept)[0] == kept[0].id;
      State(kept, kept[0].id)
  }

  /** The repaired removal keeps the invariants. */
  lemma RemoveSectionRepairedConsistency(st: State, id: string)
    requires Consistent(st)
    ensures Consistent(RemoveSectionRepaired(st, id))
  {
    RemoveSectionKeepsIdsDistinct(st, id);
  }

  /** Removing a section that is not the active one leaves the pointer alone. */
  lemma RemoveInactiveKeepsPointer(st: State, id: string)
    requires Consistent(st)
    requires st.activeSectionId != id
    ensures RemoveSectionRepaired(st, id).activeSectionId == st.activeSectionId
  {
    if st.sections != [] {
      var kept := RemoveSection(st, id).sections;
      var k :| 0 <= k < |st.sections| && Ids(st.sections)[k] == st.activeSectionId;
      assert st.sections[k] in kept;
      var j :| 0 <= j < |kept| && kept[j] == st.sections[k];
      assert Ids(kept)[j] == st.activeSectionId;
    }
  }

  /** Removing the active section moves the pointer to the first remaining
      section, or clears it when none remain. */
  lemma RemoveActiveMovesPointer(st: State)
    requires Consistent(st)
    ensures var r := RemoveSectionRepaired(st, st.activeSectionId);
      r.activeSectionId == if r.sections == [] then "" else r.sections[0].id
  {
    var r := RemoveSectionRepaired(st, st.activeSectionId);
    assert st.activeSectionId !in Ids(r.sections) by {
      forall k | 0 <= k < |r.sections|
        ensures Ids(r.sections)[k] != st.activeSectionId
      {
      }
    }
  }

  /** Removing the active section when it is not the first: here the program
      already leaves the pointer where the repaired removal does. */
  lemma RemoveSectionRepairedAgrees(st: State)
    requires Distinct(Ids(st.sections))
    requires |st.sections| > 0 && st.sections[0].id != st.activeSectionId
    requires st.activeSectionId in Ids(st.sections)
    ensures RemoveSectionRepaired(st, st.activeSectionId) == RemoveSection(st, st.activeSectionId)
  {
    var id := st.activeSectionId;
    var kept := RemoveSection(st, id).sections;
    assert Filter(st.sections, (s: Section) => s.id != id)
      == [st.sections[0]] + Filter(st.sections[1..], (s: Section) => s.id != id);
    assert kept[0] == st.sections[0];
    RemoveActiveMovesPointer(st);
  }

  /** A concrete case of the unconditional reset: with sections "a", "b", "c"
      and "c" active, removing "b" moves the pointer to "a" as written, while
      the repaired removal keeps it on "c". */
  lemma RemoveInactiveSectionExample()
    ensures var st := State([CustomSection("a", "A", true, []), CustomSection("b", "B", true, []),
                             CustomSection("c", "C", true, [])], "c");
      && Consistent(st)
      && RemoveSection(st, "b").activeSectionId == "a"
      && RemoveSectionRepaired(st, "b").activeSectionId == "c"
  {
    var st := State([CustomSection("a", "A", true, []), CustomSection("b", "B", true, []),
                      CustomSection("c", "C", true, [])], "c");
    assert Ids(st.sections) == ["a", "b", "c"];
    RemoveInactiveKeepsPointer(st, "b");
  }

  /* ---------------------------------------------------------------------- */
  /* Order of the items a removal keeps                                     */
  /* ---------------------------------------------------------------------- */

  /** With distinct ids, dropping the item at position `k` deletes exactly
      that position and keeps the order of the others. */
  lemma DropListItemUnique(s: Section, k: nat)
    requires s.ListSection? && k < |s.listItems|
    requires Distinct(ListItemIds(s.listItems))
    ensures DropListItem(s, s.listItems[k].id).listItems == s.listItems[..k] + s.listItems[k+1..]
  {
    var id := s.listItems[k].id;
    forall i | 0 <= i < |s.listItems| && i != k
      ensures s.listItems[i].id != id
    {
      assert ListItemIds(s.listItems)[i] != ListItemIds(s.listItems)[k];
    }
    FilterSingleOut(s.listItems, k, (it: ListItem) => it.id != id);
  }

  /** Dropping splits over any cut of the items: the survivors of the first
      part come first, in their order, then those of the second. */
  lemma DropListItemSplits(s: Section, a: seq<ListItem>, b: seq<ListItem>, itemId: string)
    requires s.ListSection?
    ensures DropListItem(s.(listItems := a + b), itemId).listItems
         == DropListItem(s.(listItems := a), itemId).listItems + DropListItem(s.(listItems := b), itemId).listItems
  {
    FilterConcat(a, b, (it: ListItem) => it.id != itemId);
  }

  /** With distinct ids, dropping the item at position `k` deletes exactly
      that position and keeps the order of the others. */
  lemma DropSkillItemUnique(s: Section, k: nat)
    requires s.SkillsSection? && k < |s.skillItems|
    requires Distinct(SkillItemIds(s.skillItems))
    ensures DropSkillItem(s, s.skillItems[k].id).skillItems == s.skillItems[..k] + s.skillItems[k+1..]
  {
    var id := s.skillItems[k].id;
    forall i | 0 <= i < |s.skillItems| && i != k
      ensures s.skillItems[i].id != id
    {
      assert SkillItemIds(s.skillItems)[i] != SkillItemIds(s.skillItems)[k];
    }
    FilterSingleOut(s.skillItems, k, (it: SkillItem) => it.id != id);
  }

  /** Dropping splits over any cut of the items: the survivors of the first
      part come first, in their order, then those of the second. */
  lemma DropSkillItemSplits(s: Section, a: seq<SkillItem>, b: seq<SkillItem>, itemId: string)
    requires s.SkillsSection?
    ensures DropSkillItem(s.(skillItems := a + b), itemId).skillItems
         == DropSkillItem(s.(skillItems := a), itemId).skillItems + DropSkillItem(s.(skillItems := b), itemId).skillItems
  {
    FilterConcat(a, b, (it: SkillItem) => it.id != itemId);
  }

  /** With distinct ids, dropping the item at position `k` deletes exactly
      that position and keeps the order of the others. */
  lemma DropCustomBlockUnique(s: Section, k: nat)
    requires s.CustomSection? && k < |s.blocks|
    requires Distinct(BlockIds(s.blocks))
    ensures DropCustomBlock(s, s.blocks[k].id).blocks == s.blocks[..k] + s.blocks[k+1..]
  {
    var id := s.blocks[k].id;
    forall i | 0 <= i < |s.blocks| && i != k
      ensures s.blocks[i].id != id
    {
      assert BlockIds(s.blocks)[i] != BlockIds(s.blocks)[k];
    }
    FilterSingleOut(s.blocks, k, (b: CustomBlock) => b.id != id);
  }

  /** Dropping splits over any cut of the items: the survivors of the first
      part come first, in their order, then those of the second. */
  lemma DropCustomBlockSplits(s: Section, a: seq<CustomBlock>, b: seq<CustomBlock>, itemId: string)
    requires s.CustomSection?
    ensures DropCustomBlock(s.(blocks := a + b), itemId).blocks
         == DropCustomBlock(s.(blocks := a), itemId).blocks + DropCustomBlock(s.(blocks := b), itemId).blocks
  {
    FilterConcat(a, b, (b: CustomBlock) => b.id != itemId);
  }

  /* ---------------------------------------------------------------------- */
  /* Round trips and inverses                                               */
  /* ---------------------------------------------------------------------- */

  /** Adding a section under a fresh id and removing that id restores the
      sections; the pointer lands on the first section (or on the removed
      id when the document was empty). */
  lemma AddThenRemoveSection(st: State, t: SectionType, newId: string)
    requires newId !in Ids(st.sections)
    ensures var r := RemoveSection(AddSection(st, t, newId), newId);
      && r.sections == st.sections
      && r.activeSectionId == if st.sections == [] then newId else st.sections[0].id
  {
    var added := AddSection(st, t, newId).sections;
    var keep := (s: Section) => s.id != newId;
    FilterConcat(st.sections, [NewSection(t, newId)], keep);
    assert added == st.sections + [NewSection(t, newId)];
    forall i | 0 <= i < |st.sections|
      ensures keep(st.sections[i])
    {
      assert Ids(st.sections)[i] == st.sections[i].id;
    }
  }

  /** Reordering back undoes a reorder. */
  lemma ReorderSectionsInverse(st: State, from: nat, to: nat)
    requires from < |st.sections| && to < |st.sections|
    ensures ReorderSections(ReorderSections(st, from, to), to, from) == st
  {
    MoveInverse(st.sections, from, to);
  }

  /** Spreading two section patches in turn is spreading their union, so
      repeating an update changes nothing more. */
  lemma UpdateSectionThen(st: State, id: string, p: SectionPatch, q: SectionPatch)
    ensures UpdateSection(UpdateSection(st, id, p), id, q) == UpdateSection(st, id, ThenSection(p, q))
    ensures UpdateSection(UpdateSection(st, id, p), id, p) == UpdateSection(st, id, p)
  {
    var a := UpdateSection(UpdateSection(st, id, p), id, q);
    var b := UpdateSection(st, id, ThenSection(p, q));
    forall i | 0 <= i < |st.sections|
      ensures a.sections[i] == b.sections[i]
    {
      if st.sections[i].id == id {
        MergeSectionThen(st.sections[i], p, q);
      }
    }
    assert |a.sections| == |Ids(a.sections)|;
    forall i | 0 <= i < |st.sections| && st.sections[i].id == id
      ensures MergeSection(MergeSection(st.sections[i], p), p) == MergeSection(st.sections[i], p)
    {
      MergeSectionIdentities(st.sections[i], p);
    }
    assert |UpdateSection(st, id, p).sections| == |Ids(st.sections)|;
  }

  /** The id `itemId` is unused in every list-kind section with id `sectionId`. */
  ghost predicate FreshListItemId(st: State, sectionId: string, itemId: string)
  {
    forall i :: 0 <= i < |st.sections| && IsListTarget(st.sections[i], sectionId) ==>
      itemId !in ListItemIds(st.sections[i].listItems)
  }

  ghost predicate FreshSkillItemId(st: State, sectionId: string, itemId: string)
  {
    forall i :: 0 <= i < |st.sections| && IsSkillsTarget(st.sections[i], sectionId) ==>
      itemId !in SkillItemIds(st.sections[i].skillItems)
  }

  ghost predicate FreshBlockId(st: State, sectionId: string, blockId: string)
  {
    forall i :: 0 <= i < |st.sections| && IsCustomTarget(st.sections[i], sectionId) ==>
      blockId !in BlockIds(st.sections[i].blocks)
  }

  /** Appending `x` whose key is dropped by the filter, to a sequence none of
      whose keys are, is undone by the filter. */
  lemma FilterDropsAppended<T>(s: seq<T>, x: T, keep: T -> bool)
    requires forall k :: 0 <= k < |s| ==> keep(s[k])
    requires !keep(x)
    ensures Filter(s + [x], keep) == s
  {
    FilterConcat(s, [x], keep);
  }

  /** One list section: appending an entry under an unused id and filtering
      that id out gives the section back. */
  lemma AppendThenFilterListItem(s: Section, itemId: string)
    requires s.ListSection? && itemId !in ListItemIds(s.listItems)
    ensures var added := s.(listItems := s.listItems + [ListItem(itemId, "", "", "", "", None)]);
      DropListItem(added, itemId) == s
  {
    forall k | 0 <= k < |s.listItems|
      ensures s.listItems[k].id != itemId
    {
      assert ListItemIds(s.listItems)[k] == s.listItems[k].id;
    }
    FilterDropsAppended(s.listItems, ListItem(itemId, "", "", "", "", None), (it: ListItem) => it.id != itemId);
  }

  /** `addListItem` with a fresh id followed by `removeListItem` of that id
      restores the whole state. */
  lemma AddThenRemoveListItem(st: State, sectionId: string, itemId: string)
    requires FreshListItemId(st, sectionId, itemId)
    ensures RemoveListItem(AddListItem(st, sectionId, itemId), sectionId, itemId) == st
  {
    var mid := AddListItem(st, sectionId, itemId);
    var r := RemoveListItem(mid, sectionId, itemId);
    assert |r.sections| == |Ids(r.sections)| == |Ids(st.sections)| == |st.sections|;
    forall i | 0 <= i < |st.sections|
      ensures r.sections[i] == st.sections[i]
    {
      var s := st.sections[i];
      assert Ids(mid.sections)[i] == Ids(st.sections)[i];
      if IsListTarget(s, sectionId) {
        assert mid.sections[i] == s.(listItems := s.listItems + [ListItem(itemId, "", "", "", "", None)]);
        assert IsListTarget(mid.sections[i], sectionId);
        assert r.sections[i] == DropListItem(mid.sections[i], itemId);
        AppendThenFilterListItem(s, itemId);
      } else {
        assert mid.sections[i] == s;
      }
    }
  }

  /** One skills section: appending a skill row under an unused id and
      filtering that id out gives the section back. */
  lemma AppendThenFilterSkillItem(s: Section, itemId: string)
    requires s.SkillsSection? && itemId !in SkillItemIds(s.skillItems)
    ensures var added := s.(skillItems := s.skillItems + [SkillItem(itemId, "", "")]);
      DropSkillItem(added, itemId) == s
  {
    forall k | 0 <= k < |s.skillItems|
      ensures s.skillItems[k].id != itemId
    {
      assert SkillItemIds(s.skillItems)[k] == s.skillItems[k].id;
    }
    FilterDropsAppended(s.skillItems, SkillItem(itemId, "", ""), (it: SkillItem) => it.id != itemId);
  }

  /** `addSkillItem` with a fresh id followed by `removeSkillItem` of that id
      restores the whole state. */
  lemma AddThenRemoveSkillItem(st: State, sectionId: string, itemId: string)
    requires FreshSkillItemId(st, sectionId, itemId)
    ensures RemoveSkillItem(AddSkillItem(st, sectionId, itemId), sectionId, itemId) == st
  {
    var mid := AddSkillItem(st, sectionId, itemId);
    var r := RemoveSkillItem(mid, sectionId, itemId);
    assert |r.sections| == |Ids(r.sections)| == |Ids(st.sections)| == |st.sections|;
    forall i | 0 <= i < |st.sections|
      ensures r.sections[i] == st.sections[i]
    {
      var s := st.sections[i];
      assert Ids(mid.sections)[i] == Ids(st.sections)[i];
      if IsSkillsTarget(s, sectionId) {
        assert mid.sections[i] == s.(skillItems := s.skillItems + [SkillItem(itemId, "", "")]);
        assert IsSkillsTarget(mid.sections[i], sectionId);
        assert r.sections[i] == DropSkillItem(mid.sections[i], itemId);
        AppendThenFilterSkillItem(s, itemId);
      } else {
        assert mid.sections[i] == s;
      }
    }
  }

  /** One custom section: appending a block under an unused id and filtering
      that id out gives the section back. */
  lemma AppendThenFilterBlock(s: Section, t: CustomBlockType, blockId: string)
    requires s.CustomSection? && blockId !in BlockIds(s.blocks)
    ensures var added := s.(blocks := s.blocks + [CustomBlock(blockId, t, "", None)]);
      DropCustomBlock(added, blockId) == s
  {
    forall k | 0 <= k < |s.blocks|
      ensures s.blocks[k].id != blockId
    {
      assert BlockIds(s.blocks)[k] == s.blocks[k].id;
    }
    FilterDropsAppended(s.blocks, CustomBlock(blockId, t, "", None), (b: CustomBlock) => b.id != blockId);
  }

  /** `addCustomBlock` with a fresh id followed by `removeCustomBlock` of that
      id restores the whole state. */
  lemma AddThenRemoveCustomBlock(st: State, sectionId: string, t: CustomBlockType, blockId: string)
    requires FreshBlockId(st, sectionId, blockId)
    ensures RemoveCustomBlock(AddCustomBlock(st, sectionId, t, blockId), sectionId, blockId) == st
  {
    var mid := AddCustomBlock(st, sectionId, t, blockId);
    var r := RemoveCustomBlock(mid, sectionId, blockId);
    assert |r.sections| == |Ids(r.sections)| == |Ids(st.sections)| == |st.sections|;
    forall i | 0 <= i < |st.sections|
      ensures r.sections[i] == st.sections[i]
    {
      var s := st.sections[i];
      assert Ids(mid.sections)[i] == Ids(st.sections)[i];
      if IsCustomTarget(s, sectionId) {
        assert mid.sections[i] == s.(blocks := s.blocks + [CustomBlock(blockId, t, "", None)]);
        assert IsCustomTarget(mid.sections[i], sectionId);
        assert r.sections[i] == DropCustomBlock(mid.sections[i], blockId);
        AppendThenFilterBlock(s, t, blockId);
      } else {
        assert mid.sections[i] == s;
      }
    }
  }

  /** Patching every entry with the id once more changes nothing: the merge
      keeps the id, and a patched field already holds the patch's value. */
  lemma MergeListItemsAgain(a: seq<ListItem>, b: seq<ListItem>, c: seq<ListItem>, itemId: string, p: ListItemPatch)
    requires |b| == |a| && |c| == |b|
    requires forall k :: 0 <= k < |a| ==>
      b[k] == if a[k].id == itemId then MergeListItem(a[k], p) else a[k]
    requires forall k :: 0 <= k < |b| ==>
      c[k] == if b[k].id == itemId then MergeListItem(b[k], p) else b[k]
    ensures c == b
  {
    forall k | 0 <= k < |b|
      ensures c[k] == b[k]
    {
      assert b[k].id == a[k].id;
    }
  }

  /** `updateListItem` is idempotent: sending the same entry patch twice has
      the effect of sending it once. */
  lemma UpdateListItemIdempotent(st: State, sectionId: string, itemId: string, p: ListItemPatch)
    ensures var once := UpdateListItem(st, sectionId, itemId, p);
      UpdateListItem(once, sectionId, itemId, p) == once
  {
    var once := UpdateListItem(st, sectionId, itemId, p);
    var twice := UpdateListItem(once, sectionId, itemId, p);
    assert |once.sections| == |st.sections| by {
      assert |once.sections| == |Ids(once.sections)|;
    }
    assert |twice.sections| == |once.sections| by {
      assert |twice.sections| == |Ids(twice.sections)|;
    }
    forall i | 0 <= i < |st.sections|
      ensures twice.sections[i] == once.sections[i]
    {
      assert once.sections[i].id == st.sections[i].id by {
        assert Ids(once.sections)[i] == Ids(st.sections)[i];
      }
      if IsListTarget(st.sections[i], sectionId) {
        var a, b, c := st.sections[i].listItems, once.sections[i].listItems, twice.sections[i].listItems;
        assert IsListTarget(once.sections[i], sectionId);
        assert |b| == |a| by {
          assert |b| == |ListItemIds(b)|;
        }
        assert |c| == |b| by {
          assert |c| == |ListItemIds(c)|;
        }
        MergeListItemsAgain(a, b, c, itemId, p);
      }
    }
  }

  lemma MergeSkillItemsAgain(a: seq<SkillItem>, b: seq<SkillItem>, c: seq<SkillItem>, itemId: string, p: SkillItemPatch)
    requires |b| == |a| && |c| == |b|
    requires forall k :: 0 <= k < |a| ==>
      b[k] == if a[k].id == itemId then MergeSkillItem(a[k], p) else a[k]
    requires forall k :: 0 <= k < |b| ==>
      c[k] == if b[k].id == itemId then MergeSkillItem(b[k], p) else b[k]
    ensures c == b
  {
    forall k | 0 <= k < |b|
      ensures c[k] == b[k]
    {
      assert b[k].id == a[k].id;
    }
  }

  /** `updateSkillItem` is idempotent. */
  lemma UpdateSkillItemIdempotent(st: State, sectionId: string, itemId: string, p: SkillItemPatch)
    ensures var once := UpdateSkillItem(st, sectionId, itemId, p);
      UpdateSkillItem(once, sectionId, itemId, p) == once
  {
    var once := UpdateSkillItem(st, sectionId, itemId, p);
    var twice := UpdateSkillItem(once, sectionId, itemId, p);
    assert |once.sections| == |st.sections| by {
      assert |once.sections| == |Ids(once.sections)|;
    }
    assert |twice.sections| == |once.sections| by {
      assert |twice.sections| == |Ids(twice.sections)|;
    }
    forall i | 0 <= i < |st.sections|
      ensures twice.sections[i] == once.sections[i]
    {
      assert once.sections[i].id == st.sections[i].id by {
        assert Ids(once.sections)[i] == Ids(st.sections)[i];
      }
      if IsSkillsTarget(st.sections[i], sectionId) {
        var a, b, c := st.sections[i].skillItems, once.sections[i].skillItems, twice.sections[i].skillItems;
        assert IsSkillsTarget(once.sections[i], sectionId);
        assert |b| == |a| by {
          assert |b| == |SkillItemIds(b)|;
        }
        assert |c| == |b| by {
          assert |c| == |SkillItemIds(c)|;
        }
        MergeSkillItemsAgain(a, b, c, itemId, p);
      }
    }
  }

  lemma MergeCustomBlocksAgain(a: seq<CustomBlock>, b: seq<CustomBlock>, c: seq<CustomBlock>, blockId: string, p: CustomBlockPatch)
    requires |b| == |a| && |c| == |b|
    requires forall k :: 0 <= k < |a| ==>
      b[k] == if a[k].id == blockId then MergeCustomBlock(a[k], p) else a[k]
    requires forall k :: 0 <= k < |b| ==>
      c[k] == if b[k].id == blockId then MergeCustomBlock(b[k], p) else b[k]
    ensures c == b
  {
    forall k | 0 <= k < |b|
      ensures c[k] == b[k]
    {
      assert b[k].id == a[k].id;
    }
  }

  /** `updateCustomBlock` is idempotent. */
  lemma UpdateCustomBlockIdempotent(st: State, sectionId: string, blockId: string, p: CustomBlockPatch)
    ensures var once := UpdateCustomBlock(st, sectionId, blockId, p);
      UpdateCustomBlock(once, sectionId, blockId, p) == once
  {
    var once := UpdateCustomBlock(st, sectionId, blockId, p);
    var twice := UpdateCustomBlock(once, sectionId, blockId, p);
    assert |once.sections| == |st.sections| by {
      assert |once.sections| == |Ids(once.sections)|;
    }
    assert |twice.sections| == |once.sections| by {
      assert |twice.sections| == |Ids(twice.sections)|;
    }
    forall i | 0 <= i < |st.sections|
      ensures twice.sections[i] == once.sections[i]
    {
      assert once.sections[i].id == st.sections[i].id by {
        assert Ids(once.sections)[i] == Ids(st.sections)[i];
      }
      if IsCustomTarget(st.sections[i], sectionId) {
        var a, b, c := st.sections[i].blocks, once.sections[i].blocks, twice.sections[i].blocks;
        assert IsCustomTarget(once.sections[i], sectionId);
        assert |b| == |a| by {
          assert |b| == |BlockIds(b)|;
        }
        assert |c| == |b| by {
          assert |c| == |BlockIds(c)|;
        }
        MergeCustomBlocksAgain(a, b, c, blockId, p);
      }
    }
  }

  /** Every item-level operation keeps a consistent document consistent: none
      of them touches a section id or the active pointer. */
  lemma ItemOperationsKeepConsistency(st: State, sectionId: string, itemId: string,
                                      lp: ListItemPatch, sp: SkillItemPatch,
                                      t: CustomBlockType, bp: CustomBlockPatch)
    requires Consistent(st)
    ensures Consistent(AddListItem(st, sectionId, itemId))
    ensures Consistent(UpdateListItem(st, sectionId, itemId, lp))
    ensures Consistent(RemoveListItem(st, sectionId, itemId))
    ensures Consistent(AddSkillItem(st, sectionId, itemId))
    ensures Consistent(UpdateSkillItem(st, sectionId, itemId, sp))
    ensures Consistent(RemoveSkillItem(st, sectionId, itemId))
    ensures Consistent(AddCustomBlock(st, sectionId, t, itemId))
    ensures Consistent(UpdateCustomBlock(st, sectionId, itemId, bp))
    ensures Consistent(RemoveCustomBlock(st, sectionId, itemId))
  {
    SameIdsKeepConsistency(st, AddListItem(st, sectionId, itemId));
    SameIdsKeepConsistency(st, UpdateListItem(st, sectionId, itemId, lp));
    SameIdsKeepConsistency(st, RemoveListItem(st, sectionId, itemId));
    SameIdsKeepConsistency(st, AddSkillItem(st, sectionId, itemId));
    SameIdsKeepConsistency(st, UpdateSkillItem(st, sectionId, itemId, sp));
    SameIdsKeepConsistency(st, RemoveSkillItem(st, sectionId, itemId));
    SameIdsKeepConsistency(st, AddCustomBlock(st, sectionId, t, itemId));
    SameIdsKeepConsistency(st, UpdateCustomBlock(st, sectionId, itemId, bp));
    SameIdsKeepConsistency(st, RemoveCustomBlock(st, sectionId, itemId));
  }

  /** Reordering blocks keeps a consistent document consistent. */
  lemma ReorderCustomBlockConsistency(st: State, sectionId: string, from: nat, to: nat)
    requires BlockIndicesInRange(st.sections, sectionId, from, to)
    requires Consistent(st)
    ensures Consistent(ReorderCustomBlock(st, sectionId, from, to))
  {
    SameIdsKeepConsistency(st, ReorderCustomBlock(st, sectionId, from, to));
  }

  /** Reordering the blocks back undoes a block reorder. */
  lemma ReorderCustomBlockInverse(st: State, sectionId: string, from: nat, to: nat)
    requires BlockIndicesInRange(st.sections, sectionId, from, to)
    ensures BlockIndicesInRange(ReorderCustomBlock(st, sectionId, from, to).sections, sectionId, to, from)
    ensures ReorderCustomBlock(ReorderCustomBlock(st, sectionId, from, to), sectionId, to, from) == st
  {
    var mid := ReorderCustomBlock(st, sectionId, from, to);
    assert |mid.sections| == |Ids(mid.sections)| == |Ids(st.sections)| == |st.sections|;
    forall i | 0 <= i < |st.sections|
      ensures IsCustomTarget(mid.sections[i], sectionId) <==> IsCustomTarget(st.sections[i], sectionId)
    {
      assert Ids(mid.sections)[i] == Ids(st.sections)[i];
    }
    var r := ReorderCustomBlock(mid, sectionId, to, from);
    assert |r.sections| == |Ids(r.sections)|;
    forall i | 0 <= i < |st.sections|
      ensures r.sections[i] == st.sections[i]
    {
      if IsCustomTarget(st.sections[i], sectionId) {
        MoveInverse(st.sections[i].blocks, from, to);
      }
    }
  }

  /* ---------------------------------------------------------------------- */
  /* Kind gates                                                             */
  /* ---------------------------------------------------------------------- */

  /** With distinct ids, the entry operations aimed at a section that is not
      of a list kind (a skills section, say) leave the state unchanged. */
  lemma ListItemOpsIgnoreOtherKinds(st: State, k: nat, itemId: string, p: ListItemPatch)
    requires Distinct(Ids(st.sections))
    requires k < |st.sections| && !st.sections[k].ListSection?
    ensures AddListItem(st, st.sections[k].id, itemId) == st
    ensures UpdateListItem(st, st.sections[k].id, itemId, p) == st
    ensures RemoveListItem(st, st.sections[k].id, itemId) == st
  {
    forall i | 0 <= i < |st.sections|
      ensures !IsListTarget(st.sections[i], st.sections[k].id)
    {
      if i != k {
        assert Ids(st.sections)[i] != Ids(st.sections)[k];
      }
    }
  }

  /** The same gate for the skill operations. */
  lemma SkillItemOpsIgnoreOtherKinds(st: State, k: nat, itemId: string, p: SkillItemPatch)
    requires Distinct(Ids(st.sections))
    requires k < |st.sections| && !st.sections[k].SkillsSection?
    ensures AddSkillItem(st, st.sections[k].id, itemId) == st
    ensures UpdateSkillItem(st, st.sections[k].id, itemId, p) == st
    ensures RemoveSkillItem(st, st.sections[k].id, itemId) == st
  {
    forall i | 0 <= i < |st.sections|
      ensures !IsSkillsTarget(st.sections[i], st.sections[k].id)
    {
      if i != k {
        assert Ids(st.sections)[i] != Ids(st.sections)[k];
      }
    }
  }

  /** The same gate for the block operations, the reorder included. */
  lemma CustomBlockOpsIgnoreOtherKinds(st: State, k: nat, t: CustomBlockType, blockId: string,
                                       p: CustomBlockPatch, from: nat, to: nat)
    requires Distinct(Ids(st.sections))
    requires k < |st.sections| && !st.sections[k].CustomSection?
    ensures AddCustomBlock(st, st.sections[k].id, t, blockId) == st
    ensures UpdateCustomBlock(st, st.sections[k].id, blockId, p) == st
    ensures RemoveCustomBlock(st, st.sections[k].id, blockId) == st
    ensures BlockIndicesInRange(st.sections, st.sections[k].id, from, to)
    ensures ReorderCustomBlock(st, st.sections[k].id, from, to) == st
  {
    forall i | 0 <= i < |st.sections|
      ensures !IsCustomTarget(st.sections[i], st.sections[k].id)
    {
      if i != k {
        assert Ids(st.sections)[i] != Ids(st.sections)[k];
      }
    }
  }
}

=== FILE: template.dfy ===
/** The standard résumé template as a pure function from the section list to
    an abstract output tree: an optional header built from the first profile
    section, then one titled output per visible non-profile section whose body
    the section kind selects. Markup and styling are not modelled; an element
    the template guards by a truthiness test is an `Option` here. */
module Template {
  import opened Wrappers
  import opened Seqs
  import opened Types
  import opened Text

  /* ---------------------------------------------------------------------- */
  /* Bullet segmentation                                                    */
  /* ---------------------------------------------------------------------- */

  /** A rendered free-text field: one paragraph, or a list of bullet lines. */
  datatype Description = Paragraph(text: string) | BulletList(items: seq<string>)

  /** `line.trim().length > 0`: the line has a character outside the
      whitespace set. */
  function NonBlank(line: string): (b: bool)
    ensures b <==> !IsBlank(line)
  {
    TrimEmptyIffBlank(line);
    |Trim(line)| > 0
  }

  /** The split lines of `text` that survive, in order. */
  function ContentLines(text: string): (lines: seq<string>)
    ensures |lines| <= |SplitLines(text)|
    ensures |lines| == Count(SplitLines(text), NonBlank)
    ensures forall k :: 0 <= k < |lines| ==> NonBlank(lines[k]) && '\n' !in lines[k]
    ensures forall x :: x in lines <==> x in SplitLines(text) && NonBlank(x)
  {
    var r := Filter(SplitLines(text), NonBlank);
    FilterCount(SplitLines(text), NonBlank);
    forall x
      ensures x in r <==> x in SplitLines(text) && NonBlank(x)
    {
      FilterMembers(SplitLines(text), NonBlank, x);
    }
    assert forall k :: 0 <= k < |r| ==> '\n' !in r[k] by {
      forall k | 0 <= k < |r|
        ensures '\n' !in r[k]
      {
        FilterMembers(SplitLines(text), NonBlank, r[k]);
      }
    }
    r
  }


  /** The surviving lines keep the order of the split pieces: cutting the
      pieces anywhere, the survivors of the first part come first. */
  lemma ContentLinesKeepOrder(text: string, m: nat)
    requires m <= |SplitLines(text)|
    ensures var pieces := SplitLines(text);
      ContentLines(text) == Filter(pieces[..m], NonBlank) + Filter(pieces[m..], NonBlank)
  {
    var pieces := SplitLines(text);
    assert pieces == pieces[..m] + pieces[m..];
    FilterConcat(pieces[..m], pieces[m..], NonBlank);
  }

  /** `line.startsWith('•') || line.startsWith('-')`: the line begins with
      one of the two bullet markers. */
  function StartsWithMarker(line: string): (b: bool)
    ensures b <==> |line| > 0 && (line[0] == '•' || line[0] == '-')
  {
    "•" <= line || "-" <= line
  }

  /** Removes one leading marker and all whitespace after it; a line without
      a marker is returned unchanged. */
  function StripMarker(line: string): (r: string)
    ensures !StartsWithMarker(line) ==> r == line
    ensures StartsWithMarker(line) ==>
      && |r| < |line| && r == line[|line| - |r|..]
      && IsBlank(line[1..|line| - |r|])
      && (r == [] || !IsJsSpace(r[0]))
  {
    if StartsWithMarker(line) then
      var r := TrimStart(line[1..]);
      assert line[1..][..|line| - 1 - |r|] == line[1..|line| - |r|];
      r
    else line
  }

  /** `renderDescription`: nothing for the empty text; a paragraph holding the
      line verbatim when exactly one unmarked line survives; otherwise one
      bullet per surviving line with its marker stripped. */
  function RenderDescription(text: string): (r: Option<Description>)
    ensures r.None? <==> text == ""
    ensures r.Some? ==>
      var lines := ContentLines(text);
      && (r.value.Paragraph? <==> |lines| == 1 && !StartsWithMarker(lines[0]))
      && (r.value.Paragraph? ==> r.value.text == lines[0])
      && (r.value.BulletList? ==>
            |r.value.items| == |lines| &&
            forall k :: 0 <= k < |lines| ==> r.value.items[k] == StripMarker(lines[k]))
  {
    if text == "" then None else Some(Segment(ContentLines(text)))
  }

  /** The paragraph-or-list decision on the surviving lines. */
  function Segment(lines: seq<string>): (d: Description)
    ensures d.Paragraph? <==> |lines| == 1 && !StartsWithMarker(lines[0])
    ensures d.Paragraph? ==> d.text == lines[0]
    ensures d.BulletList? ==>
      |d.items| == |lines| && forall k :: 0 <= k < |lines| ==> d.items[k] == StripMarker(lines[k])
  {
    if |lines| == 1 && !StartsWithMarker(lines[0]) then Paragraph(lines[0])
    else BulletList(seq(|lines|, k requires 0 <= k < |lines| => StripMarker(lines[k])))
  }

  /** A single non-blank unmarked line renders as itself, as a paragraph. */
  lemma SingleLineIsParagraph(line: string)
    requires '\n' !in line && !IsBlank(line) && !StartsWithMarker(line)
    ensures RenderDescription(line) == Some(Paragraph(line))
  {
    SplitJoin([line]);
    TrimEmptyIffBlank(line);
    assert SplitLines(line) == [line];
  }

  /** The marker and the whitespace after it come off "• " + `item` when
      `item` has no leading whitespace. */
  lemma StripBulleted(item: string)
    requires item == [] || !IsJsSpace(item[0])
    ensures StripMarker("• " + item) == item
  {
    var line := "• " + item;
    var rest := [' '] + item;
    assert line[0] == '•' && line[1..] == rest;
    assert rest[0] == ' ' && rest[1..] == item;
    assert TrimStart(item) == item;
    assert TrimStart(rest) == item;
  }

  /** A line written as "• " followed by `item` (no leading whitespace) is a
      marked, non-blank line the template turns back into `item`. */
  lemma BulletLine(item: string)
    requires '\n' !in item
    requires item == [] || !IsJsSpace(item[0])
    ensures var line := "• " + item;
      && '\n' !in line && StartsWithMarker(line) && NonBlank(line) && StripMarker(line) == item
  {
    var line := "• " + item;
    assert line[0] == '•' && !IsJsSpace(line[0]);
    assert '\n' !in line by {
      assert line == ['•', ' '] + item;
    }
    TrimEmptyIffBlank(line);
    StripBulleted(item);
  }

  /** Each item prefixed with "• ". */
  function Bulleted(items: seq<string>): (lines: seq<string>)
    ensures |lines| == |items|
    ensures forall k :: 0 <= k < |items| ==> lines[k] == "• " + items[k]
  {
    seq(|items|, k requires 0 <= k < |items| => "• " + items[k])
  }

  /** No line holds a line break. */
  predicate NoNewlines(lines: seq<string>)
  {
    forall k :: 0 <= k < |lines| ==> '\n' !in lines[k]
  }

  lemma NoNewlinesConcat(a: seq<string>, b: seq<string>)
    requires NoNewlines(a) && NoNewlines(b)
    ensures NoNewlines(a + b)
  {
    forall k | 0 <= k < |a + b|
      ensures '\n' !in (a + b)[k]
    {
      if k < |a| { assert (a + b)[k] == a[k]; } else { assert (a + b)[k] == b[k - |a|]; }
    }
  }

  /** Two or more non-blank unmarked lines render as a list of exactly those
      lines, unchanged. */
  lemma {:induction false} PlainLinesAreBullets(lines: seq<string>)
    requires |lines| >= 2
    requires NoNewlines(lines)
    requires forall k :: 0 <= k < |lines| ==> !IsBlank(lines[k]) && !StartsWithMarker(lines[k])
    ensures RenderDescription(JoinLines(lines)) == Some(BulletList(lines))
  {
    forall k | 0 <= k < |lines|
      ensures NonBlank(lines[k]) && StripMarker(lines[k]) == lines[k]
    {
      TrimEmptyIffBlank(lines[k]);
    }
    JoinedListOfLines(lines, lines);
  }

  /** A single plain line is a paragraph. */
  lemma ExampleOneLine()
    ensures RenderDescription("Did X") == Some(Paragraph("Did X"))
  {
    assert !IsJsSpace("Did X"[0]);
    SingleLineIsParagraph("Did X");
  }

  /** Two plain lines are two bullets. */
  lemma ExampleTwoLines()
    ensures RenderDescription("Did X\nDid Y") == Some(BulletList(["Did X", "Did Y"]))
  {
    var lines := ["Did X", "Did Y"];
    assert JoinLines(lines) == "Did X\nDid Y";
    assert !IsJsSpace(lines[0][0]) && !IsJsSpace(lines[1][0]);
    PlainLinesAreBullets(lines);
  }

  /** A single marked line is a one-bullet list, not a paragraph. */
  lemma ExampleMarkedLine()
    ensures RenderDescription("• Did X") == Some(BulletList(["Did X"]))
  {
    assert JoinLines(Bulleted(["Did X"])) == "• Did X";
    BulletRoundTrip(["Did X"]);
  }

  /** Text made only of whitespace and line breaks renders as an empty list. */
  lemma BlankTextIsEmptyList(text: string)
    requires text != "" && IsBlank(text)
    ensures RenderDescription(text) == Some(BulletList([]))
  {
    var split := SplitLines(text);
    forall k | 0 <= k < |split|
      ensures !NonBlank(split[k])
    {
      forall i | 0 <= i < |split[k]|
        ensures IsJsSpace(split[k][i])
      {
        SplitLinesChars(text, k, i);
      }
      TrimEmptyIffBlank(split[k]);
    }
  }

  /** Joining non-blank newline-free lines gives a text whose surviving
      lines are those lines. */
  lemma ContentLinesOfJoin(lines: seq<string>)
    requires |lines| >= 1 && NoNewlines(lines)
    requires forall k :: 0 <= k < |lines| ==> NonBlank(lines[k])
    ensures JoinLines(lines) != "" && ContentLines(JoinLines(lines)) == lines
  {
    SplitJoin(lines);
    assert JoinLines(lines) != "" by {
      JoinLinesEmpty(lines);
      assert NonBlank(lines[0]);
    }
  }

  /** A text whose surviving lines are not one unmarked line renders as the
      list of those lines with markers stripped. */
  lemma ListOfLines(text: string, items: seq<string>)
    requires text != ""
    requires var lines := ContentLines(text);
      && (|lines| != 1 || StartsWithMarker(lines[0]))
      && |items| == |lines|
      && forall k :: 0 <= k < |lines| ==> items[k] == StripMarker(lines[k])
    ensures RenderDescription(text) == Some(BulletList(items))
  {
    var r := RenderDescription(text);
    assert r.Some? && r.value.BulletList?;
    assert r.value.items == items;
  }

  /** Non-blank newline-free lines, joined, render as the list `items` when
      they are not a single unmarked line and `items` strips their markers. */
  lemma JoinedListOfLines(lines: seq<string>, items: seq<string>)
    requires |lines| >= 1 && NoNewlines(lines)
    requires forall k :: 0 <= k < |lines| ==> NonBlank(lines[k])
    requires |lines| != 1 || StartsWithMarker(lines[0])
    requires |items| == |lines| && forall k :: 0 <= k < |lines| ==> items[k] == StripMarker(lines[k])
    ensures RenderDescription(JoinLines(lines)) == Some(BulletList(items))
  {
    ContentLinesOfJoin(lines);
    ListOfLines(JoinLines(lines), items);
  }

  /** Bullet lines written as "• item" and joined by newlines render back to
      exactly those items, as a list even when there is only one. */
  lemma {:induction false} BulletRoundTrip(items: seq<string>)
    requires |items| >= 1
    requires forall k :: 0 <= k < |items| ==> '\n' !in items[k]
    requires forall k :: 0 <= k < |items| ==> items[k] == [] || !IsJsSpace(items[k][0])
    ensures RenderDescription(JoinLines(Bulleted(items))) == Some(BulletList(items))
  {
    var lines := Bulleted(items);
    BulletedLines(items);
    JoinedListOfLines(lines, items);
  }

  /** Every "• item" line is newline-free, non-blank and marked, and
      stripping its marker gives the item back. */
  lemma BulletedLines(items: seq<string>)
    requires forall k :: 0 <= k < |items| ==> '\n' !in items[k]
    requires forall k :: 0 <= k < |items| ==> items[k] == [] || !IsJsSpace(items[k][0])
    ensures var lines := Bulleted(items);
      && NoNewlines(lines)
      && (forall k :: 0 <= k < |lines| ==> NonBlank(lines[k]))
      && (forall k :: 0 <= k < |lines| ==> StartsWithMarker(lines[k]) && StripMarker(lines[k]) == items[k])
  {
    var lines := Bulleted(items);
    forall k | 0 <= k < |lines|
      ensures '\n' !in lines[k] && NonBlank(lines[k])
      ensures StartsWithMarker(lines[k]) && StripMarker(lines[k]) == items[k]
    {
      BulletLine(items[k]);
    }
  }

  /** Two non-empty texts with the same surviving lines render alike. */
  lemma SameLinesSameRendering(t1: string, t2: string)
    requires t1 != "" && t2 != ""
    requires ContentLines(t1) == ContentLines(t2)
    ensures RenderDescription(t1) == RenderDescription(t2)
  {
  }

  /** Inserting a blank line anywhere does not change the rendering. */
  lemma {:induction false} DescriptionIgnoresBlankLine(before: seq<string>, blank: string, after: seq<string>)
    requires NoNewlines(before) && NoNewlines(after)
    requires '\n' !in blank && IsBlank(blank)
    requires before + after != [] && before + after != [""]
    ensures RenderDescription(JoinLines(before + [blank] + after)) == RenderDescription(JoinLines(before + after))
  {
    var with := before + [blank] + after;
    var without := before + after;
    NoNewlinesConcat(before, [blank]);
    NoNewlinesConcat(before + [blank], after);
    NoNewlinesConcat(before, after);
    SplitJoin(with);
    SplitJoin(without);
    JoinLinesEmpty(with);
    JoinLinesEmpty(without);
    assert Filter([blank], NonBlank) == [] by {
      TrimEmptyIffBlank(blank);
      assert !NonBlank([blank][0]);
    }
    FilterConcat(before + [blank], after, NonBlank);
    FilterConcat(before, [blank], NonBlank);
    FilterConcat(before, after, NonBlank);
    assert Filter(before + [blank], NonBlank) == Filter(before, NonBlank);
    assert Filter(with, NonBlank) == Filter(without, NonBlank);
    SameLinesSameRendering(JoinLines(with), JoinLines(without));
  }

  /* ---------------------------------------------------------------------- */
  /* Header                                                                 */
  /* ---------------------------------------------------------------------- */

  /** A string field shown only when non-empty. */
  function IfPresent(s: string): (r: Option<string>)
    ensures r.Some? <==> s != ""
    ensures r.Some? ==> r.value == s
  {
    if s == "" then None else Some(s)
  }

  /** An optional string field shown only when present and non-empty. */
  function IfPresentOpt(o: Option<string>): (r: Option<string>)
    ensures r.Some? <==> o.Some? && o.value != ""
    ensures r.Some? ==> r == o
  {
    if o.Some? && o.value != "" then o else None
  }

  /** The contact line: email, a separator, phone. */
  datatype Contact = Contact(email: Option<string>, separator: bool, phone: Option<string>)

  datatype Header = Header(name: string, contact: Contact, url: Option<string>, summary: Option<string>)

  /** The header of a profile section. The name is always shown; the
      separator only between a non-empty email and a non-empty phone. */
  function RenderHeader(p: Section): (h: Header)
    requires p.ProfileSection?
    ensures h.name == p.name
    ensures h.contact.email.Some? <==> p.email != ""
    ensures h.contact.phone.Some? <==> p.phone != ""
    ensures h.contact.separator <==> p.email != "" && p.phone != ""
    ensures h.url.Some? <==> p.url != ""
    ensures h.summary.Some? <==> p.summary.Some? && p.summary.value != ""
    ensures h.contact.email.Some? ==> h.contact.email.value == p.email
    ensures h.contact.phone.Some? ==> h.contact.phone.value == p.phone
    ensures h.url.Some? ==> h.url.value == p.url
    ensures h.summary.Some? ==> h.summary == p.summary
  {
    Header(p.name,
           Contact(IfPresent(p.email), p.email != "" && p.phone != "", IfPresent(p.phone)),
           IfPresent(p.url),
           IfPresentOpt(p.summary))
  }

  /* ---------------------------------------------------------------------- */
  /* Section bodies                                                         */
  /* ---------------------------------------------------------------------- */

  /** One skills row: the category label and the unparsed items string. */
  datatype SkillLine = SkillLine(category: string, items: string)

  /** One rendered entry of a work, education or projects section. */
  datatype EntryOut = EntryOut(
    title: string,
    date: Option<string>,
    subtitle: Option<string>,
    description: Option<Description>)

  /** One rendered block of a custom section. */
  datatype BlockOut =
    | HeadingOut(text: string)
    | SubtitleOut(text: string, date: Option<string>)
    | TextOut(text: string)
    | ListOut(description: Option<Description>)

  /** The body a section kind selects; `NoBody` is what a section matching
      none of the kind branches (a profile) would get. */
  datatype Body =
    | SkillsBody(skills: seq<SkillLine>)
    | EntriesBody(entries: seq<EntryOut>)
    | BlocksBody(blocks: seq<BlockOut>)
    | NoBody

  datatype SectionOut = SectionOut(heading: string, body: Body)

  datatype Document = Document(header: Option<Header>, sections: seq<SectionOut>)

  /** An entry: the date is shown only outside projects sections and only
      when non-empty; the subtitle only when non-empty. */
  function RenderEntry(kind: ListSectionType, it: ListItem): (e: EntryOut)
    ensures e.title == it.title
    ensures e.date.Some? <==> !kind.Projects? && it.date != ""
    ensures e.date.Some? ==> e.date.value == it.date
    ensures e.subtitle.Some? <==> it.subtitle != ""
    ensures e.subtitle.Some? ==> e.subtitle.value == it.subtitle
    ensures e.description == RenderDescription(it.description)
  {
    EntryOut(it.title,
             if kind.Projects? then None else IfPresent(it.date),
             IfPresent(it.subtitle),
             RenderDescription(it.description))
  }

  /** A block, laid out by its block kind. */
  function RenderBlock(b: CustomBlock): (o: BlockOut)
    ensures o.HeadingOut? <==> b.blockType.Heading?
    ensures o.SubtitleOut? <==> b.blockType.Subtitle?
    ensures o.TextOut? <==> b.blockType.Text?
    ensures o.ListOut? <==> b.blockType.ListBlock?
    ensures !o.ListOut? ==> o.text == b.content
    ensures o.SubtitleOut? ==> (o.date.Some? <==> b.date.Some? && b.date.value != "")
    ensures o.SubtitleOut? && o.date.Some? ==> o.date == b.date
    ensures o.ListOut? ==> o.description == RenderDescription(b.content)
  {
    match b.blockType
    case Heading => HeadingOut(b.content)
    case Subtitle => SubtitleOut(b.content, IfPresentOpt(b.date))
    case Text => TextOut(b.content)
    case ListBlock => ListOut(RenderDescription(b.content))
  }

  /** A section: its title, then the body its kind selects, one output per
      item in item order. */
  function RenderSection(s: Section): (o: SectionOut)
    ensures o.heading == s.title
    ensures o.body.SkillsBody? <==> s.SkillsSection?
    ensures o.body.EntriesBody? <==> s.ListSection?
    ensures o.body.BlocksBody? <==> s.CustomSection?
    ensures o.body.NoBody? <==> s.ProfileSection?
    ensures s.SkillsSection? ==>
      |o.body.skills| == |s.skillItems| &&
      forall k :: 0 <= k < |s.skillItems| ==>
        o.body.skills[k] == SkillLine(s.skillItems[k].category, s.skillItems[k].items)
    ensures s.ListSection? ==>
      |o.body.entries| == |s.listItems| &&
      forall k :: 0 <= k < |s.listItems| ==> o.body.entries[k] == RenderEntry(s.listType, s.listItems[k])
    ensures s.CustomSection? ==>
      |o.body.blocks| == |s.blocks| &&
      forall k :: 0 <= k < |s.blocks| ==> o.body.blocks[k] == RenderBlock(s.blocks[k])
  {
    var body := match s
      case ProfileSection(_, _, _, _, _, _, _, _) => NoBody
      case SkillsSection(_, _, _, items) =>
        SkillsBody(seq(|items|, k requires 0 <= k < |items| => SkillLine(items[k].category, items[k].items)))
      case ListSection(_, _, _, kind, items) =>
        EntriesBody(seq(|items|, k requires 0 <= k < |items| => RenderEntry(kind, items[k])))
      case CustomSection(_, _, _, blocks) =>
        BlocksBody(seq(|blocks|, k requires 0 <= k < |blocks| => RenderBlock(blocks[k])));
    SectionOut(s.title, body)
  }

  /** A section appears in the body when it is not a profile and is visible. */
  function Shown(s: Section): (b: bool)
    ensures b <==> KindOf(s) != Profile && s.isVisible
  {
    !s.ProfileSection? && s.isVisible
  }

  /** The section outputs: every section is mapped to its output or to
      nothing, in document order; this is exactly the rendering of the shown
      sections. */
  function RenderBody(ss: seq<Section>): (r: seq<SectionOut>)
    ensures r == Map(Filter(ss, Shown), RenderSection)
  {
    MapFilterIsMapOfFilter(ss, Shown, RenderSection);
    MapFilter(ss, Shown, RenderSection)
  }

  /** The body splits over a split of the sections. */
  lemma RenderBodyConcat(a: seq<Section>, b: seq<Section>)
    ensures RenderBody(a + b) == RenderBody(a) + RenderBody(b)
  {
    MapFilterConcat(a, b, Shown, RenderSection);
  }

  /** `data.find(s => s.type === 'profile')`, as a position. */
  function FirstProfile(ss: seq<Section>): (r: Option<nat>)
    ensures r.Some? ==> r.value < |ss| && ss[r.value].ProfileSection?
    ensures r.Some? ==> forall j :: 0 <= j < r.value ==> !ss[j].ProfileSection?
    ensures r.None? <==> forall j :: 0 <= j < |ss| ==> !ss[j].ProfileSection?
  {
    FindIndex(ss, (s: Section) => s.ProfileSection?)
  }

  /** The header: that of the first profile section, if there is one,
      whatever its visibility. */
  function HeaderOf(ss: seq<Section>): (h: Option<Header>)
    ensures h.Some? <==> exists i :: 0 <= i < |ss| && ss[i].ProfileSection?
    ensures forall i :: 0 <= i < |ss| && ss[i].ProfileSection? ==>
      ((forall j :: 0 <= j < i ==> !ss[j].ProfileSection?) ==> h == Some(RenderHeader(ss[i])))
  {
    match FirstProfile(ss)
    case None => None
    case Some(i) => Some(RenderHeader(ss[i]))
  }

  /** The whole document: the header, then the body. */
  function Render(ss: seq<Section>): (d: Document)
    ensures d.header.Some? <==> exists i :: 0 <= i < |ss| && ss[i].ProfileSection?
    ensures forall i :: 0 <= i < |ss| && ss[i].ProfileSection? ==>
      ((forall j :: 0 <= j < i ==> !ss[j].ProfileSection?) ==> d.header == Some(RenderHeader(ss[i])))
    ensures d.sections == Map(Filter(ss, Shown), RenderSection)
  {
    Document(HeaderOf(ss), RenderBody(ss))
  }
}

=== FILE: text.dfy ===
/** The JavaScript string primitives the template relies on: `split('\n')`,
    `trim()` and the regex class `\s`, over strings of Unicode characters. */
module Text {

  /** ECMAScript WhiteSpace and LineTerminator code points: the set `trim()`
      removes and the regex class `\s` matches. */
  predicate IsJsSpace(c: char)
  {
    || c == '\t' || c == '\n' || c == '\U{000B}' || c == '\U{000C}' || c == '\r'
    || c == ' ' || c == '\U{00A0}' || c == '\U{1680}'
    || ('\U{2000}' <= c <= '\U{200A}')
    || c == '\U{2028}' || c == '\U{2029}' || c == '\U{202F}' || c == '\U{205F}'
    || c == '\U{3000}' || c == '\U{FEFF}'
  }

  /** Every character is whitespace (the empty string included). */
  predicate IsBlank(s: string)
  {
    forall i :: 0 <= i < |s| ==> IsJsSpace(s[i])
  }

  /** `s.trimStart()`, which is also what `\s*` consumes at the front. */
  function TrimStart(s: string): (r: string)
    ensures |r| <= |s| && r == s[|s| - |r|..]
    ensures IsBlank(s[..|s| - |r|])
    ensures r == [] || !IsJsSpace(r[0])
  {
    if s == [] || !IsJsSpace(s[0]) then s
    else
      var r := TrimStart(s[1..]);
      TrimStartStep(s, r);
      r
  }

  /** A whitespace character in front of a blank run keeps it blank, and a
      suffix of `s[1..]` is a suffix of `s`. */
  lemma TrimStartStep(s: string, r: string)
    requires s != [] && IsJsSpace(s[0]) && |r| <= |s| - 1
    requires r == s[1..][|s| - 1 - |r|..] && IsBlank(s[1..][..|s| - 1 - |r|])
    ensures r == s[|s| - |r|..] && IsBlank(s[..|s| - |r|])
  {
    var n := |s| - |r|;
    forall i | 0 <= i < n
      ensures IsJsSpace(s[..n][i])
    {
      if i > 0 { assert s[..n][i] == s[1..][..n - 1][i - 1]; }
    }
  }

  /** `s.trimEnd()`. */
  function TrimEnd(s: string): (r: string)
    ensures |r| <= |s| && r == s[..|r|]
    ensures IsBlank(s[|r|..])
    ensures r == [] || !IsJsSpace(r[|r| - 1])
  {
    if s == [] || !IsJsSpace(s[|s| - 1]) then s
    else
      var r := TrimEnd(s[..|s| - 1]);
      assert s[..|s| - 1][|r|..] == s[|r|..|s| - 1];
      r
  }

  /** `s.trim()`: what `trimEnd()` keeps of what `trimStart()` keeps. Together
      with their contracts, the result is the slice of `s` between a leading
      and a trailing blank run, and it neither starts nor ends with
      whitespace. */
  function Trim(s: string): (r: string)
    ensures |r| <= |TrimStart(s)| && r == TrimStart(s)[..|r|]
    ensures IsBlank(TrimStart(s)[|r|..])
    ensures r == [] || (!IsJsSpace(r[0]) && !IsJsSpace(r[|r| - 1]))
  {
    var t := TrimStart(s);
    var r := TrimEnd(t);
    assert r != [] ==> r[0] == t[0];
    r
  }

  /** A line survives `line.trim().length > 0` exactly when it is not blank. */
  lemma TrimEmptyIffBlank(s: string)
    ensures |Trim(s)| == 0 <==> IsBlank(s)
  {
    var t := TrimStart(s);
    if |Trim(s)| == 0 {
      assert t[0..] == t;
      assert t == [];
      assert s[..|s|] == s;
    } else {
      assert t != [] && !IsJsSpace(t[0]);
      assert t[0] == s[|s| - |t|];
    }
  }

  /** The position of the first occurrence of `c`. */
  function IndexOf(s: string, c: char): (k: nat)
    requires c in s
    ensures k < |s| && s[k] == c && c !in s[..k]
  {
    if s[0] == c then 0
    else
      var k := IndexOf(s[1..], c) + 1;
      assert s[..k] == [s[0]] + s[1..][..k - 1];
      k
  }

  /** `lines.join('\n')`. */
  function JoinLines(lines: seq<string>): string
  {
    if |lines| == 0 then ""
    else if |lines| == 1 then lines[0]
    else lines[0] + "\n" + JoinLines(lines[1..])
  }

  /** Joining gives the empty text only for no lines or one empty line. */
  lemma JoinLinesEmpty(lines: seq<string>)
    ensures JoinLines(lines) == "" <==> lines == [] || lines == [""]
  {
    if |lines| > 1 {
      assert |JoinLines(lines)| >= 1;
    }
  }

  /** `s.split('\n')`: the maximal newline-free pieces between newlines,
      always at least one; joining them back gives `s`. */
  function SplitLines(s: string): (r: seq<string>)
    ensures |r| >= 1
    ensures forall k :: 0 <= k < |r| ==> '\n' !in r[k]
    ensures JoinLines(r) == s
    decreases |s|
  {
    if '\n' !in s then [s]
    else
      var k := IndexOf(s, '\n');
      var rest := SplitLines(s[k+1..]);
      assert s == s[..k] + "\n" + s[k+1..];
      assert ([s[..k]] + rest)[1..] == rest;
      [s[..k]] + rest
  }

  /** The first occurrence is the one with none before it. */
  lemma IndexOfAt(s: string, c: char, k: nat)
    requires k < |s| && s[k] == c && c !in s[..k]
    ensures IndexOf(s, c) == k
  {
    var j := IndexOf(s, c);
    assert forall i :: 0 <= i < k ==> s[..k][i] == s[i];
    assert forall i :: 0 <= i < j ==> s[..j][i] == s[i];
  }

  /** Splitting undoes joining for lines without newlines. */
  lemma {:induction false} SplitJoin(lines: seq<string>)
    requires |lines| >= 1
    requires forall k :: 0 <= k < |lines| ==> '\n' !in lines[k]
    ensures SplitLines(JoinLines(lines)) == lines
  {
    if |lines| > 1 {
      var head, tail := lines[0], lines[1..];
      var s := JoinLines(lines);
      assert IndexOf(s, '\n') == |head| && s[..|head|] == head && s[|head| + 1..] == JoinLines(tail) by {
        assert s == head + "\n" + JoinLines(tail);
        assert s[..|head|] == head;
        IndexOfAt(s, '\n', |head|);
      }
      SplitJoin(tail);
      assert SplitLines(s) == [head] + SplitLines(JoinLines(tail));
      assert lines == [head] + tail;
    }
  }

  /** Every character of a line occurs in the text it was split from. */
  lemma {:induction false} SplitLinesChars(s: string, k: nat, i: nat)
    requires k < |SplitLines(s)| && i < |SplitLines(s)[k]|
    ensures SplitLines(s)[k][i] in s
    decreases |s|
  {
    if '\n' in s {
      var j := IndexOf(s, '\n');
      if k == 0 {
        assert SplitLines(s)[0] == s[..j];
        assert s[..j][i] == s[i];
      } else {
        SplitLinesChars(s[j+1..], k - 1, i);
      }
    }
  }
}

=== FILE: types.dfy ===
/** The résumé document schema: a tagged union of sections, each holding
    the item type its kind fixes, plus the data half of the store state. */
module Types {
  import opened Wrappers

  /** The six section tags. `List` is the work-experience kind; it shares the
      entry shape with `Education` and `Projects`. */
  datatype SectionType = Profile | Custom | List | Skills | Education | Projects

  /** The tags whose sections hold `ListItem`s. */
  predicate IsListType(t: SectionType)
  {
    t.List? || t.Education? || t.Projects?
  }

  type ListSectionType = t: SectionType | IsListType(t) witness List

  /** One entry of a work, education or projects section. `date` is free text
      (never parsed) and `description` holds newline-separated bullet lines. */
  datatype ListItem = ListItem(
    id: string,
    title: string,
    subtitle: string,
    date: string,
    description: string,
    url: Option<string>)

  /** One skill category; `items` is a single unparsed string. */
  datatype SkillItem = SkillItem(id: string, category: string, items: string)

  /** The four block tags of a custom section. `ListBlock` is the `list` tag. */
  datatype CustomBlockType = Heading | Subtitle | Text | ListBlock

  datatype CustomBlock = CustomBlock(
    id: string,
    blockType: CustomBlockType,
    content: string,
    date: Option<string>)

  /** A section: every variant carries `id`, `title` and `isVisible`; the
      variant fixes both the tag and the item type. A profile section has
      scalar fields and no items. */
  datatype Section =
    | ProfileSection(
        id: string, title: string, isVisible: bool,
        name: string, email: string, phone: string, url: string,
        summary: Option<string>)
    | ListSection(
        id: string, title: string, isVisible: bool,
        listType: ListSectionType, listItems: seq<ListItem>)
    | SkillsSection(
        id: string, title: string, isVisible: bool,
        skillItems: seq<SkillItem>)
    | CustomSection(
        id: string, title: string, isVisible: bool,
        blocks: seq<CustomBlock>)

  /** The data half of the store: the ordered sections and the id of the
      section being edited. */
  datatype State = State(sections: seq<Section>, activeSectionId: string)

  /** The `type` tag of a section. */
  function KindOf(s: Section): (t: SectionType)
    ensures t.Profile? <==> s.ProfileSection?
    ensures IsListType(t) <==> s.ListSection?
    ensures s.ListSection? ==> t == s.listType
    ensures t.Skills? <==> s.SkillsSection?
    ensures t.Custom? <==> s.CustomSection?
  {
    match s
    case ProfileSection(_, _, _, _, _, _, _, _) => Profile
    case ListSection(_, _, _, t, _) => t
    case SkillsSection(_, _, _, _) => Skills
    case CustomSection(_, _, _, _) => Custom
  }

  /** Every tag is the tag of some section: the union has no unused kind. */
  lemma EveryKindInhabited(t: SectionType)
    ensures exists s :: KindOf(s) == t
  {
    match t
    case Profile => assert KindOf(ProfileSection("", "", true, "", "", "", "", None)) == t;
    case Custom => assert KindOf(CustomSection("", "", true, [])) == t;
    case Skills => assert KindOf(SkillsSection("", "", true, [])) == t;
    case List => assert KindOf(ListSection("", "", true, t, [])) == t;
    case Education => assert KindOf(ListSection("", "", true, t, [])) == t;
    case Projects => assert KindOf(ListSection("", "", true, t, [])) == t;
  }

  /** The section ids in document order. */
  function Ids(ss: seq<Section>): (r: seq<string>)
    ensures |r| == |ss|
    ensures forall i :: 0 <= i < |ss| ==> r[i] == ss[i].id
  {
    seq(|ss|, i requires 0 <= i < |ss| => ss[i].id)
  }

  function ListItemIds(items: seq<ListItem>): (r: seq<string>)
    ensures |r| == |items|
    ensures forall i :: 0 <= i < |items| ==> r[i] == items[i].id
  {
    seq(|items|, i requires 0 <= i < |items| => items[i].id)
  }

  function SkillItemIds(items: seq<SkillItem>): (r: seq<string>)
    ensures |r| == |items|
    ensures forall i :: 0 <= i < |items| ==> r[i] == items[i].id
  {
    seq(|items|, i requires 0 <= i < |items| => items[i].id)
  }

  function BlockIds(blocks: seq<CustomBlock>): (r: seq<string>)
    ensures |r| == |blocks|
    ensures forall i :: 0 <= i < |blocks| ==> r[i] == blocks[i].id
  {
    seq(|blocks|, i requires 0 <= i < |blocks| => blocks[i].id)
  }
}

=== FILE: workspace.dfy ===
/** The block move buttons of the form workspace: the one bounds guard in
    front of `reorderCustomBlock`. */
module Workspace {
  import opened Wrappers
  import opened Seqs
  import opened Types
  import opened Store

  datatype Direction = Up | Down

  /** The neighbour a block moves to: one up or one down. */
  function Target(index: nat, dir: Direction): (t: int)
    ensures dir.Up? ==> t + 1 == index
    ensures dir.Down? ==> t == index + 1
  {
    match dir
    case Up => index - 1
    case Down => index + 1
  }

  /** The position of the section being edited: the first one whose id is
      the active id. */
  function ActiveIndex(st: State): (r: Option<nat>)
    ensures r.Some? ==> r.value < |st.sections| && st.sections[r.value].id == st.activeSectionId
    ensures r.Some? ==> forall j :: 0 <= j < r.value ==> st.sections[j].id != st.activeSectionId
    ensures r.None? <==> st.activeSectionId !in Ids(st.sections)
  {
    var r := FindIndex(st.sections, (s: Section) => s.id == st.activeSectionId);
    assert r.None? ==> forall j :: 0 <= j < |st.sections| ==> Ids(st.sections)[j] != st.activeSectionId;
    r
  }

  /** The index handed to a move button is the position of an existing block
      of the active custom section. */
  predicate IndexInActiveBlocks(st: State, index: nat)
  {
    match ActiveIndex(st)
    case None => true
    case Some(a) => st.sections[a].CustomSection? ==> index < |st.sections[a].blocks|
  }

  /** Moving to a neighbouring position swaps the two blocks. */
  lemma MoveNeighbour(blocks: seq<CustomBlock>, index: nat, t: nat)
    requires index < |blocks| && t < |blocks|
    requires t == index + 1 || index == t + 1
    ensures Move(blocks, index, t) == blocks[index := blocks[t]][t := blocks[index]]
  {
    if index == t + 1 {
      MoveAdjacent(blocks, t);
      assert blocks[t := blocks[index]][index := blocks[t]]
          == blocks[index := blocks[t]][t := blocks[index]];
    } else {
      MoveAdjacent(blocks, index);
    }
  }

  /** With distinct ids, reordering the blocks of the section at `a` moves
      its blocks and touches no other section. */
  lemma ReorderOneSection(st: State, a: nat, index: nat, t: nat)
    requires Distinct(Ids(st.sections))
    requires a < |st.sections| && st.sections[a].CustomSection?
    requires index < |st.sections[a].blocks| && t < |st.sections[a].blocks|
    ensures BlockIndicesInRange(st.sections, st.sections[a].id, index, t)
    ensures var r := ReorderCustomBlock(st, st.sections[a].id, index, t);
      && (forall i :: 0 <= i < |st.sections| && i != a ==> r.sections[i] == st.sections[i])
      && r.sections[a] == st.sections[a].(blocks := Move(st.sections[a].blocks, index, t))
  {
    var s := st.sections[a];
    forall i | 0 <= i < |st.sections| && i != a
      ensures !IsCustomTarget(st.sections[i], s.id)
    {
      assert Ids(st.sections)[i] != Ids(st.sections)[a];
    }
    var r := ReorderCustomBlock(st, s.id, index, t);
    assert r.sections[a].blocks == Move(s.blocks, index, t);
  }

  /** With distinct ids, reordering the blocks of the section at `a` between
      two neighbouring positions swaps those two blocks and touches nothing
      else. */
  lemma ReorderAdjacent(st: State, a: nat, index: nat, t: nat)
    requires Distinct(Ids(st.sections))
    requires a < |st.sections| && st.sections[a].CustomSection?
    requires index < |st.sections[a].blocks| && t < |st.sections[a].blocks|
    requires t == index + 1 || index == t + 1
    ensures BlockIndicesInRange(st.sections, st.sections[a].id, index, t)
    ensures var r := ReorderCustomBlock(st, st.sections[a].id, index, t);
      var blocks := st.sections[a].blocks;
      && (forall i :: 0 <= i < |st.sections| && i != a ==> r.sections[i] == st.sections[i])
      && r.sections[a] == st.sections[a].(blocks := blocks[index := blocks[t]][t := blocks[index]])
  {
    ReorderOneSection(st, a, index, t);
    MoveNeighbour(st.sections[a].blocks, index, t);
  }

  /** `moveBlock(index, direction)`: when the active section is custom and the
      neighbour exists, the block swaps places with that neighbour and nothing
      else changes; otherwise the state is unchanged. */
  function MoveBlock(st: State, index: nat, dir: Direction): (r: State)
    requires Distinct(Ids(st.sections))
    requires IndexInActiveBlocks(st, index)
    ensures r.activeSectionId == st.activeSectionId
    ensures Ids(r.sections) == Ids(st.sections)
    ensures ActiveIndex(st).None? ==> r == st
    ensures ActiveIndex(st).Some? && !st.sections[ActiveIndex(st).value].CustomSection? ==> r == st
    ensures ActiveIndex(st).Some? && st.sections[ActiveIndex(st).value].CustomSection? ==>
      var a := ActiveIndex(st).value;
      var blocks := st.sections[a].blocks;
      var t := Target(index, dir);
      && (!(0 <= t < |blocks|) ==> r == st)
      && (0 <= t < |blocks| ==>
            && (forall i :: 0 <= i < |st.sections| && i != a ==> r.sections[i] == st.sections[i])
            && r.sections[a] == st.sections[a].(blocks := blocks[index := blocks[t]][t := blocks[index]]))
  {
    match ActiveIndex(st)
    case None => st
    case Some(a) =>
      var s := st.sections[a];
      if !s.CustomSection? then st
      else
        var t := Target(index, dir);
        if 0 <= t < |s.blocks| then
          ReorderAdjacent(st, a, index, t);
          ReorderCustomBlock(st, s.id, index, t)
        else st
  }

  /** Moving the first block up, or the last block down, does nothing. */
  lemma EdgeMovesAreNoOps(st: State, a: nat)
    requires Distinct(Ids(st.sections))
    requires a < |st.sections| && st.sections[a].id == st.activeSectionId
    requires st.sections[a].CustomSection? && |st.sections[a].blocks| > 0
    ensures MoveBlock(st, 0, Up) == st
    ensures MoveBlock(st, |st.sections[a].blocks| - 1, Down) == st
  {
    assert Ids(st.sections)[a] == st.activeSectionId;
    var found := ActiveIndex(st).value;
    assert Ids(st.sections)[found] == st.activeSectionId;
    assert found == a;
  }

  /** Swapping two positions twice restores the sequence. */
  lemma SwapTwice<T>(s: seq<T>, i: nat, j: nat)
    requires i < |s| && j < |s|
    ensures var w := s[i := s[j]][j := s[i]];
      w[j := w[i]][i := w[j]] == s
  {
  }

  /** Overwriting a position and writing the old value back restores the
      sequence. */
  lemma WriteBack<T>(s: seq<T>, i: nat, x: T)
    requires i < |s|
    ensures s[i := x][i := s[i]] == s
  {
  }

  /** The active position survives a move: ids and the active id are kept. */
  lemma ActiveIndexKept(st: State, r: State)
    requires Distinct(Ids(st.sections))
    requires Ids(r.sections) == Ids(st.sections) && r.activeSectionId == st.activeSectionId
    ensures ActiveIndex(r) == ActiveIndex(st)
  {
    if ActiveIndex(st).Some? {
      var a := ActiveIndex(st).value;
      var m := ActiveIndex(r).value;
      assert Ids(r.sections)[m] == r.activeSectionId;
      assert Ids(st.sections)[a] == st.activeSectionId;
    }
  }

  /** An in-range move, as one update of the section list. */
  lemma MoveBlockSwaps(st: State, index: nat, dir: Direction)
    requires Distinct(Ids(st.sections))
    requires ActiveIndex(st).Some?
    requires var s := st.sections[ActiveIndex(st).value];
      s.CustomSection? && index < |s.blocks| && 0 <= Target(index, dir) < |s.blocks|
    ensures var a := ActiveIndex(st).value;
      var blocks := st.sections[a].blocks;
      var t := Target(index, dir);
      MoveBlock(st, index, dir) ==
        st.(sections := st.sections[a := st.sections[a].(blocks := blocks[index := blocks[t]][t := blocks[index]])])
  {
    var r := MoveBlock(st, index, dir);
    assert |r.sections| == |Ids(r.sections)| == |Ids(st.sections)| == |st.sections|;
  }

  /** Moving a block down and then moving it back up restores the state. */
  lemma DownThenUp(st: State, index: nat)
    requires Distinct(Ids(st.sections))
    requires ActiveIndex(st).Some?
    requires var s := st.sections[ActiveIndex(st).value];
      s.CustomSection? && index + 1 < |s.blocks|
    ensures IndexInActiveBlocks(MoveBlock(st, index, Down), index + 1)
    ensures MoveBlock(MoveBlock(st, index, Down), index + 1, Up) == st
  {
    var a := ActiveIndex(st).value;
    var blocks := st.sections[a].blocks;
    var swapped := blocks[index := blocks[index + 1]][index + 1 := blocks[index]];
    var mid := st.(sections := st.sections[a := st.sections[a].(blocks := swapped)]);
    assert MoveBlock(st, index, Down) == mid by {
      MoveBlockSwaps(st, index, Down);
    }
    assert ActiveIndex(mid) == Some(a) by {
      assert Ids(mid.sections) == Ids(st.sections) by {
        assert mid.sections[a].id == st.sections[a].id;
      }
      ActiveIndexKept(st, mid);
    }
    assert Distinct(Ids(mid.sections)) by {
      assert Ids(mid.sections) == Ids(st.sections) by {
        assert mid.sections[a].id == st.sections[a].id;
      }
    }
    assert MoveBlock(mid, index + 1, Up) == st by {
      MoveBlockSwaps(mid, index + 1, Up);
      SwapTwice(blocks, index, index + 1);
      assert mid.sections[a].(blocks := blocks) == st.sections[a];
      WriteBack(st.sections, a, mid.sections[a]);
    }
  }
}

=== FILE: wrappers.dfy ===
/** The optional-value datatype used for the program's optional (`?:`) fields
    and for lookups that may find nothing. */
module Wrappers {

  datatype Option<+T> = None | Some(value: T) {

    /** The held value, or `default` when there is none. */
    function GetOr(default: T): T {
      match this
      case Some(v) => v
      case None() => default
    }
  }
}
